=== FILE: README.md ===
# OrCAD schematic compare — a Dafny model of the comparison engine

The application loads two OrCAD JSON exports of a board design, an old one and a
new one. It normalises each into a part list, and then compares them in two ways:

- **Net topology.** Every pin contributes a connection record to the net it is
  bound to. Each net's connections are sorted by reference designator and
  written as a signature `ref.pin|ref.pin|…`. Nets are then bucketed as:
  - *added*;
  - *deleted*;
  - *mismatch*, meaning the signatures differ;
  - *unconnected*, meaning fewer than two distinct parts touch the net.
- **Components.** Parts are indexed by reference designator, and the last
  duplicate wins. The comparison reports:
  - parts added and removed;
  - three independent lists of footprint, value and part-number changes.

The model covers that engine. It also covers the pure pieces it rests on:
- the export parser;
- the part-number classifier;
- the filter, pin delta and pin preview of the net comparison view.

Modules follow the program's structure:

| module | file | models |
|---|---|---|
| `Types` | types.dfy | the records of `types.ts` (`old`/`new` are spelled `oldNet`/`newNet`, `oldPart`/`newPart`; `type` is `kind`) |
| `Classifier` | classifier.dfy | `classifyPart`, as written and as an equivalent first-match prefix table |
| `Parser` | parser.dfy | `parseOrCADJson`: list selection, per-part normalisation, pin filter, per-part net list, counts |
| `NetIndex` | net_index.dfy | `buildNetMap`: connection records, pages, stable sort by reference, signature |
| `NetDiff` | net_diff.dfy | the net diff: the four buckets, their order, their counts |
| `ComponentDiff` | component_diff.dfy | the component diff: last-write-wins lookup, added/removed, property diffs |
| `NetView` | net_view.dfy | the text filter of the net view, the IN/OUT/common pin delta, the 15-tag preview |
| `Compare` | compare.dfy | laws that join the parser, the index, the diff and the view |
| `Seqs`, `Strings`, `StableSort`, `Options` | seqs.dfy, strings.dfy, stable_sort.dfy, options.dfy | the JavaScript library behaviour the code relies on: `filter`, nested `forEach` walks (`Flatten`), `Set` insertion order, `sort` (stable), `trim`, `includes`, ASCII `toUpperCase`/`toLowerCase`, `join` |

Two points where the code differs from what one might expect:

- `buildNetMap` keys nets by `pin.net` as given. It does not drop empty or
  `"NC"` names; the parser does that. `NetIndex` therefore models no such
  filter. `Compare.ParsedIndexClean` proves that an index built from parsed
  parts never has such a key.
- The signature is not independent of pin order. The sort key is the
  reference designator alone, and the sort is stable. Two pins of the same
  part therefore keep their input order, and two inputs that differ only in
  that order give different signatures (`NetIndex.SignatureDependsOnPinOrder`).
  The model follows the code.

The comparator `a.ref.localeCompare(b.ref, undefined, {numeric: true})` is a
parameter `le` of the index. The sortedness, stability and uniqueness results
hold for any `le` that is a total preorder. `Strings.LexLe`, the code-unit order
that `Array.prototype.sort()` uses on the per-part net list, is proved to be one.

## Model

| member | source | states |
|---|---|---|
| `Classifier.ClassifyPart` | utils/classifiers.ts:4-45 | classification is total; every priority is at most 3; the result is `Unknown` exactly when the part number is empty |
| `Classifier.ClassifyPartIsFirstMatch` | utils/classifiers.ts:7-44 | for every non-empty part number the nested tests agree with a first-match walk over the ordered 21-row prefix table |
| `Classifier.FirstMatchIsFirst` | utils/classifiers.ts:12-44 | first match wins: the result is the tag of the lowest-numbered matching prefix, or `Other` when none matches |
| `Classifier.FourteenFamily` | utils/classifiers.ts:12-17 | a part number starting "14" is CP(CHIP), MP(BGA CPU), IC/Part or CPU, always with priority 3 |
| `Classifier.TransformerBeforeConverter` | utils/classifiers.ts:24-25 | "1252…" is a Transformer (priority 3) although "125…" alone means Converter |
| `Classifier.LedBeforeDiode` | utils/classifiers.ts:30-31 | "1304…" is an LED (priority 1) although "130…" alone means Diode |
| `Classifier.ThirteenFallsThrough` | utils/classifiers.ts:29-44 | a "13" number outside 130/131/132 matches none of the later tests either and ends as `Other` |
| `Classifier.UnlistedIsOther` | utils/classifiers.ts:44 | a non-empty part number no prefix matches is `Other` with priority 0 |
| `Parser.Either` | utils/parsers.ts:29-31 | a property read under two spellings yields one of the two values or the fallback, is empty only when the fallback is, and a non-empty first spelling always wins |
| `Parser.EitherFallsThrough` | utils/parsers.ts:29-31 | when the first spelling is missing or empty, the result is what the second spelling alone gives |
| `Parser.EitherEmptyIsMissing` | utils/parsers.ts:29-31 | an empty string under either spelling counts as missing, as `||` treats it as false |
| `Parser.KeptPins` | utils/parsers.ts:40-46 | no kept pin has an empty net name or the no-connect marker "NC", and no more pins are kept than exported |
| `Parser.KeptPinsIff` | utils/parsers.ts:40-46 | a pin is kept if and only if its net name is non-empty and not "NC" |
| `Parser.KeptPinsAreFiltered` | utils/parsers.ts:40-46 | the kept pins are the connected exported pins, each occurrence kept once and in export order, so there are exactly as many kept pins as connected exported pins |
| `Parser.KeptPinsInOrder` | utils/parsers.ts:40-46 | kept pins appear in their export order (a subsequence of the exported pins) |
| `Parser.PartNets` | utils/parsers.ts:37-60 | a part's net list is duplicate-free, sorted in code-unit order, and holds exactly the net names of its kept pins |
| `Parser.PartNetsUnique` | utils/parsers.ts:60 | any duplicate-free, code-unit-sorted list of the same names equals the part's net list |
| `Parser.IsNLIgnoresCase` | utils/parsers.ts:32-34 | the do-not-install flag does not depend on the letter case of the value or footprint |
| `Parser.IsNLMatchesInsideWords` | utils/parsers.ts:32-34 | the flag is a substring test: a value "online" raises it |
| `Parser.NormalisePart` | utils/parsers.ts:28-61 | every parsed part has a non-empty reference, a trimmed part number, `classifyPart(pn)` as classification, the NL flag of its value and footprint, only connected pins, and its net list as above |
| `Parser.Defaults` | utils/parsers.ts:29-51 | reference falls back to "Unk", part number to "N/A", value and footprint to "", and a part without a pin list has no pins |
| `Parser.SpellingPrecedence` | utils/parsers.ts:29-51 | for each property on its own, a non-empty mixed-case spelling is what the part carries, whatever the alternative spelling and the other properties hold; for the part number it is trimmed |
| `Parser.SecondSpelling` | utils/parsers.ts:29-51 | when the mixed-case property is missing or empty and the upper-case one is not, reference, value and footprint take the upper-case value and the part number its trimmed upper-case value |
| `Parser.NormalisedPins` | utils/parsers.ts:39-46 | the pins of a parsed part are the connected pins of its export, every occurrence kept, in export order |
| `Parser.AllParts` | utils/parsers.ts:24-63 | every part gathered from the schematics and pages is normalised |
| `Parser.AllPartsMembers` | utils/parsers.ts:24-61 | a parsed part is exactly the normalisation of an exported part on a listed page of a listed schematic, tagged with that schematic's and page's names |
| `Parser.AllPartsAppend` | utils/parsers.ts:24 | the parts of a schematic list are the parts of its first schematics followed by those of the rest |
| `Parser.PagesPartsAppend` | utils/parsers.ts:26 | within a schematic, the parts of earlier pages come before those of later pages |
| `Parser.AllPartsSinglePage` | utils/parsers.ts:28-61 | a single page yields one parsed part per exported part, in export order, each the normalisation of its exported part |
| `Parser.AllPartsCount` | utils/parsers.ts:24-63 | the number of parts is the number of exported parts on pages with a part list, in schematics with a page list |
| `Parser.MissingListsAddNothing` | utils/parsers.ts:25-27 | a schematic with no page list, or a page with no part list, contributes no part |
| `Parser.SelectionPrecedence` | utils/parsers.ts:10-19 | the highest-ranked list present is the one read: a design's schematic list, else a bare schematic list, else a bare page list wrapped as one schematic "Single" |
| `Parser.DesignList` | utils/parsers.ts:10-12 | with a design schematic list, the parts are those of that list and the metadata carries the design name, the export version and the encoding |
| `Parser.StandardExport` | utils/parsers.ts:13-15 | with no design list but a bare schematic list, the parts are those of that list and the metadata name is "Standard Export" |
| `Parser.NothingSelected` | utils/parsers.ts:5-19 | an export with none of the three lists gives no parts and metadata with empty name and version |
| `Parser.BarePageList` | utils/parsers.ts:16-18 | a bare page list is read as one schematic named "Single" with metadata name "Single Page" |
| `Parser.ParseOrCad` | utils/parsers.ts:4-68 | all parts are normalised; the part count is the number of parts; the net count is the number of distinct kept net names |
| `Parser.GlobalNetsClean` | utils/parsers.ts:42-45 | the global net set of a parsed export contains neither "" nor "NC" |
| `Parser.PartCount` | utils/parsers.ts:66 | the part count equals the number of parts reachable through the selected list |
| `NetIndex.Contributions` | App.tsx:45-62 | the walk over parts and pins yields one connection per pin |
| `NetIndex.ContributionsOfParts` | App.tsx:45-61 | a contribution occurs exactly when some part's pin yields it |
| `NetIndex.BuildNetMap` | App.tsx:43-68 | the index is well formed (distinct key order, every key's net carries its name); its keys come in order of first appearance; a name is a key exactly when some pin is bound to it |
| `NetIndex.GatherSpec` | App.tsx:44-62 | before sorting, each net holds, in walk order, the connections and pages contributed to it |
| `NetIndex.BuildNetMapNet` | App.tsx:63-66 | each net is its gathered connections, sorted by reference, with the signature of that order |
| `NetIndex.NetConnectionsFromPins` | App.tsx:47-59 | a connection is in net N exactly when some part has a pin bound to N that yields it |
| `NetIndex.NetPagesFromParts` | App.tsx:60 | a net's pages are exactly the pages of the parts that have a pin on it |
| `NetIndex.NetConnectionsArePins` | App.tsx:51-64 | a net's connections are a permutation of the records its pins contributed |
| `NetIndex.ByRefTotalPreorder` | App.tsx:64 | comparing connections by reference is a total preorder when the string comparator is |
| `NetIndex.NetPinsSortedStable` | App.tsx:64 | each net's connections are sorted by reference, and connections with equivalent references keep their input order |
| `NetIndex.SignatureIsCanonical` | App.tsx:63-65 | the connections are the only sorted, order-keeping arrangement of the contributions, and the signature is the joined keys of that arrangement |
| `NetIndex.TwoPinsOneNet` | App.tsx:45-65 | two pins of one part on one net give the signature of their two keys joined by a bar, in export order |
| `NetIndex.SignatureDependsOnPinOrder` | App.tsx:64-65 | swapping two same-part pins in the export changes the signature: U1 pins 1 then 2 give "U1.1", bar, "U1.2", and the swapped export gives the keys the other way round |
| `NetIndex.SignatureSeparators` | App.tsx:65 | when no reference or pin number contains the bar separator, a signature has one separator fewer than it has connections |
| `NetIndex.ConnectionCount` | App.tsx:44-62 | the connections of all nets add up to the number of pins, and there is one net per distinct net name |
| `NetDiff.ScanNew` | App.tsx:79-89 | the walk over the new index collects added, mismatched and unconnected nets by membership and signature |
| `NetDiff.ScanOld` | App.tsx:91-93 | the walk over the old index collects exactly the nets whose name the new index lacks |
| `NetDiff.Diff` | App.tsx:73-98 | added if and only if absent from the old index; mismatch if and only if in both with different signatures; deleted if and only if absent from the new index; unconnected if and only if fewer than two distinct references; each count is its list's length |
| `NetDiff.BucketsDisjoint` | App.tsx:79-93 | no net name is in two of added, mismatch and deleted |
| `NetDiff.SameSignatureOnlyUnconnected` | App.tsx:79-89 | a net present on both sides with equal signatures is in no bucket but, possibly, unconnected |
| `NetDiff.SelfDiff` | App.tsx:79-93 | comparing an index with itself gives empty added, deleted and mismatch lists |
| `NetDiff.DiffOrder` | App.tsx:79-93 | added, mismatch and unconnected list their nets in the key order of the new index, deleted in the key order of the old index |
| `NetDiff.AddedCount` | App.tsx:79-97 | the added count is the number of names only the new index has |
| `NetDiff.DeletedCount` | App.tsx:91-97 | the deleted count is the number of names only the old index has |
| `NetDiff.MismatchCount` | App.tsx:84-97 | the mismatch count is the number of shared names whose signatures differ |
| `NetDiff.UnconnectedCount` | App.tsx:80-97 | the unconnected count is the number of new nets with fewer than two distinct references |
| `ComponentDiff.Lookup` | App.tsx:104-105 | the lookup's keys are the references of the parts, and each key maps to a part carrying it |
| `ComponentDiff.LookupIsLastWrite` | App.tsx:104-105 | the part stored under a reference is the last part carrying it |
| `ComponentDiff.ScanParts` | App.tsx:114-124 | the walk over the new parts collects added parts and the three property lists by membership |
| `ComponentDiff.Compare` | App.tsx:101-131 | added if and only if the reference is absent from the old side; removed if and only if absent from the new side; an entry is in a property list if and only if it pairs a new part with the old part under its reference and they differ in that one field (order and multiplicity in `ComponentDiff.CompareOrder`); each count is its list's length |
| `ComponentDiff.AddedInNoDiff` | App.tsx:114-123 | an added part's reference appears in none of the property lists |
| `ComponentDiff.CompareOrder` | App.tsx:114-126 | added and removed keep the order of the part lists they come from; each property list holds one entry per paired new part whose field differs, in new-part order, so a reference repeated in the new list is reported once per occurrence |
| `ComponentDiff.ScanDiffOrder` | App.tsx:114-123 | the walk over the new parts appends to the footprint, value and part-number lists exactly the paired new parts whose field differs, in order |
| `ComponentDiff.SelfDiffUnique` | App.tsx:104-126 | with unique references, comparing a part list with itself gives all five lists empty |
| `ComponentDiff.DuplicateRefSelfDiff` | App.tsx:104-122 | with a duplicated reference, self-comparison reports a value change between the duplicates |
| `ComponentDiff.FootprintOnlyChange` | App.tsx:118-123 | a part whose footprint alone changed is in the footprint list and in no other list |
| `NetView.FilterRows` | components/NetCompareView.tsx:23-31 | an empty filter returns the list unchanged; otherwise the callback throws exactly when a net on the list has an empty name, and else the result keeps, in order, exactly the rows whose lower-cased name contains the lower-cased filter |
| `NetView.FilterIgnoresCase` | components/NetCompareView.tsx:26-29 | upper- or lower-casing the filter text does not change the result |
| `NetView.FilterIdempotentOnRows` | components/NetCompareView.tsx:26-30 | filtering the filtered list again with the same text changes nothing |
| `NetView.MismatchTabNeverThrows` | components/NetCompareView.tsx:27-28 | a mismatch row always has a name to test, so the mismatch tab's filter never throws |
| `NetView.FilterOnNetTab` | components/NetCompareView.tsx:26-30 | on nets with non-empty names the filter keeps exactly the nets whose name contains the filter, ignoring case |
| `NetView.Delta` | components/NetCompareView.tsx:88-95 | OUT is exactly the old pins whose key is not among the new keys; IN and common split the new pins by whether their key is among the old keys; all three keep input order |
| `NetView.DeltaCounts` | components/NetCompareView.tsx:94-95 | IN and common together have as many tags as the new net has pins, and share none |
| `NetView.DeltaOfSamePins` | components/NetCompareView.tsx:90-95 | identical old and new pin lists give no OUT or IN tag, and all pins are common |
| `NetView.DottedReferencesCollide` | components/NetCompareView.tsx:88-95 | pin U1.1/2 and pin U1/1.2 share the key "U1.1.2": shown as one common pin, and their nets have equal signatures |
| `NetView.PreviewOf` | components/NetCompareView.tsx:131-132 | at most 15 tags are shown, as a prefix of the pins; the "+N more" label appears exactly past 15 pins, and the shown tags plus N account for every pin |
| `Compare.ParsedIndexClean` | App.tsx:45-49 | an index built from parsed parts has no net named "" or "NC" |
| `Compare.ParsedNetCount` | utils/parsers.ts:66 | the net count of a parsed snapshot equals the number of nets in its index |
| `Compare.DiffNamesClean` | App.tsx:79-93 | every net in the added, deleted and unconnected lists of two parsed snapshots has a non-empty name |
| `Compare.ParsedFilterNeverThrows` | components/NetCompareView.tsx:23-31 | on the diff of two parsed exports, no tab's filter throws |
| `Compare.TabCountIsListLength` | components/NetCompareView.tsx:15-20 | each tab's badge count equals the length of the list the tab shows |
| `StableSort.SortIsSorted` | App.tsx:64 | the sort's output is ordered by the comparator when that comparator is a total preorder |
| `StableSort.SortIsStable` | App.tsx:64 | the sort keeps the relative order of mutually equivalent elements |
| `StableSort.SortIsUnique` | App.tsx:64 | any ordered arrangement that keeps equivalent elements in input order is the sort's output |
| `Strings.TrimFramed` | utils/parsers.ts:29 | the trimmed part number is its input with white space removed from both ends only |

## Left out

- React state, hooks, `useMemo` wiring and all rendering are not modelled. The
  dashboard, the file uploader and the component comparison view are UI. The
  tab is a parameter of `NetView.TabRows`.
- File reading, `JSON.parse` and the error alert are not modelled: they are
  I/O. An export enters the model already decoded as `Parser.RawJson`.
- The AI summary service is not part of this model. It is a network call.
- ParseOrCad: `stats.pins` is `parseInt(json.pin_count || "0", 10)` in the
  code. The model takes it as an already-parsed integer parameter, so
  non-numeric text (NaN) is not modelled.
- NetIndex.BuildNetMap: `localeCompare` with numeric collation is not
  defined. It is the comparator parameter `le`. Sortedness and stability are
  proved for every total preorder, not for ICU's collation in particular.
- Strings.Upper: case mapping covers ASCII letters only. Full Unicode
  `toUpperCase`/`toLowerCase` is not modelled, including mappings that change
  a string's length.
- Parser.PartNets: `Array.prototype.sort()` compares UTF-16 code units. The
  model orders Dafny characters, which agrees for text in the Basic
  Multilingual Plane.
- Parser.RawPin: pin `Number` and `Name` are taken to be strings. JSON numbers
  there are not modelled.
- Parser.RawPart: the part-number, value, footprint and reference properties
  are taken to be strings or absent. Page, schematic and design names and the
  export `version` are plain strings, so a missing `Name` or `version`, which
  is `undefined` in the code (utils/parsers.ts:11,14,17,54-55), is not
  modelled. In the
  code a truthy non-string value throws a `TypeError`. `.trim()` on a numeric
  part number and `.toUpperCase()` on a numeric value or footprint throw inside
  the parser, and the upload handler turns that into its "Invalid JSON format"
  alert. A numeric reference throws later, from `localeCompare`, when the net
  index is built. None of these paths is modelled, so the model parses every
  `RawJson`.
- The `color` strings of a classification are presentation data and are not
  modelled.

=== FILE: classifier.dfy ===
/** Part-type classification from the part-number prefix (`classifyPart`).
    `ClassifyPart` follows the nested tests of the source; `Rules` is the
    same knowledge written as one first-match prefix table, and
    `ClassifyPartIsFirstMatch` shows the two agree on every part number. */
module Classifier {
  import opened Types
  import opened Strings

  const Unknown := Classification("Unknown", 0)
  const Other := Classification("Other", 0)

  /** `classifyPart(pn)` as written: the tests compare `substring(0, n)` with a literal. */
  function ClassifyPart(pn: string): (c: Classification)
    ensures c.priority <= 3
    ensures c == Unknown <==> pn == ""
  {
    if pn == "" then Unknown
    else
      var p2 := Prefix(pn, 2);
      var p3 := Prefix(pn, 3);
      var p4 := Prefix(pn, 4);
      // ICs & CPUs
      if p2 == "14" then
        if StartsWith(pn, "14CP") then Classification("CP(CHIP)", 3)
        else if StartsWith(pn, "14MP") then Classification("MP(BGA CPU)", 3)
        else if p3 == "141" then Classification("IC/Part", 3)
        else Classification("CPU", 3)
      // Passives & timing
      else if p4 == "1211" then Classification("Inductor", 3)
      else if p4 == "1212" then Classification("Bead", 2)
      else if p4 == "1231" then Classification("Crystal", 2)
      else if p4 == "1233" then Classification("Oscillator", 2)
      else if p4 == "1252" then Classification("Transformer", 3)
      else if p3 == "125" then Classification("Converter", 3)
      else if p3 == "129" then Classification("Protection", 2)
      // Discrete semiconductors: a "13" number that matches none of these falls through
      else if p2 == "13" && p4 == "1304" then Classification("LED", 1)
      else if p2 == "13" && p3 == "130" then Classification("Diode", 2)
      else if p2 == "13" && p3 == "131" then Classification("Transistor", 3)
      else if p2 == "13" && p3 == "132" then Classification("Thyristor", 2)
      // Connectors & basic passives
      else if p2 == "16" then Classification("Conn/Mech", 0)
      else if p2 == "10" then Classification("Resistor", 1)
      else if p2 == "11" then Classification("Capacitor", 1)
      else if p3 == "180" then Classification("Var Resistor", 1)
      else if p2 == "15" then Classification("NETR", 0)
      else if p3 == "003" then Classification("Test Pad", 0)
      else Other
  }

  /* ---------------------------------------------------------------------
     The same classification as a first-match prefix table
     --------------------------------------------------------------------- */

  datatype Rule = Rule(prefix: string, tag: Classification)

  const Rules: seq<Rule> := [
    Rule("14CP", Classification("CP(CHIP)", 3)),
    Rule("14MP", Classification("MP(BGA CPU)", 3)),
    Rule("141", Classification("IC/Part", 3)),
    Rule("14", Classification("CPU", 3)),
    Rule("1211", Classification("Inductor", 3)),
    Rule("1212", Classification("Bead", 2)),
    Rule("1231", Classification("Crystal", 2)),
    Rule("1233", Classification("Oscillator", 2)),
    Rule("1252", Classification("Transformer", 3)),
    Rule("125", Classification("Converter", 3)),
    Rule("129", Classification("Protection", 2)),
    Rule("1304", Classification("LED", 1)),
    Rule("130", Classification("Diode", 2)),
    Rule("131", Classification("Transistor", 3)),
    Rule("132", Classification("Thyristor", 2)),
    Rule("16", Classification("Conn/Mech", 0)),
    Rule("10", Classification("Resistor", 1)),
    Rule("11", Classification("Capacitor", 1)),
    Rule("180", Classification("Var Resistor", 1)),
    Rule("15", Classification("NETR", 0)),
    Rule("003", Classification("Test Pad", 0))
  ]

  /** Whether `pn` starts with the prefix of rule `i`. */
  predicate Matches(rules: seq<Rule>, i: int, pn: string)
    requires 0 <= i < |rules|
  {
    StartsWith(pn, rules[i].prefix)
  }

  /** The tag of the first rule at or after index `i` whose prefix starts `pn`;
      `Other` when there is none. */
  function FirstMatchFrom(rules: seq<Rule>, i: nat, pn: string): Classification
    requires i <= |rules|
    decreases |rules| - i
  {
    if i == |rules| then Other
    else if Matches(rules, i, pn) then rules[i].tag
    else FirstMatchFrom(rules, i + 1, pn)
  }

  function FirstMatch(rules: seq<Rule>, pn: string): Classification
  {
    FirstMatchFrom(rules, 0, pn)
  }

  /** First match wins: the result is the tag of the lowest-numbered matching
      rule at or after `i`, or `Other` when no rule from `i` on matches. */
  lemma {:induction false} FirstMatchFromIsFirst(rules: seq<Rule>, i: nat, pn: string)
    requires i <= |rules|
    ensures var c := FirstMatchFrom(rules, i, pn);
      (exists m :: i <= m < |rules| && Matches(rules, m, pn) && c == rules[m].tag
              && forall j :: i <= j < m ==> !Matches(rules, j, pn))
      || (c == Other && forall j :: i <= j < |rules| ==> !Matches(rules, j, pn))
    decreases |rules| - i
  {
    if i < |rules| && !Matches(rules, i, pn) {
      FirstMatchFromIsFirst(rules, i + 1, pn);
    }
  }

  lemma FirstMatchIsFirst(rules: seq<Rule>, pn: string)
    ensures var c := FirstMatch(rules, pn);
      (exists m :: 0 <= m < |rules| && Matches(rules, m, pn) && c == rules[m].tag
              && forall j :: 0 <= j < m ==> !Matches(rules, j, pn))
      || (c == Other && forall j :: 0 <= j < |rules| ==> !Matches(rules, j, pn))
  {
    FirstMatchFromIsFirst(rules, 0, pn);
  }

  /** One step of the table walk. */
  lemma TableStep(pn: string, i: nat)
    requires i < |Rules|
    ensures FirstMatchFrom(Rules, i, pn) == if StartsWith(pn, Rules[i].prefix) then Rules[i].tag else FirstMatchFrom(Rules, i + 1, pn)
  {
  }

  lemma ProcessorBlock(pn: string)
    ensures FirstMatchFrom(Rules, 0, pn) == (
      if StartsWith(pn, "14CP") then Classification("CP(CHIP)", 3)
      else if StartsWith(pn, "14MP") then Classification("MP(BGA CPU)", 3)
      else if StartsWith(pn, "141") then Classification("IC/Part", 3)
      else if StartsWith(pn, "14") then Classification("CPU", 3)
      else FirstMatchFrom(Rules, 4, pn))
  {
    TableStep(pn, 0);
    TableStep(pn, 1);
    TableStep(pn, 2);
    TableStep(pn, 3);
  }

  lemma InductorBlock(pn: string)
    ensures FirstMatchFrom(Rules, 4, pn) == (
      if StartsWith(pn, "1211") then Classification("Inductor", 3)
      else if StartsWith(pn, "1212") then Classification("Bead", 2)
      else if StartsWith(pn, "1231") then Classification("Crystal", 2)
      else if StartsWith(pn, "1233") then Classification("Oscillator", 2)
      else FirstMatchFrom(Rules, 8, pn))
  {
    TableStep(pn, 4);
    TableStep(pn, 5);
    TableStep(pn, 6);
    TableStep(pn, 7);
  }

  lemma PowerBlock(pn: string)
    ensures FirstMatchFrom(Rules, 8, pn) == (
      if StartsWith(pn, "1252") then Classification("Transformer", 3)
      else if StartsWith(pn, "125") then Classification("Converter", 3)
      else if StartsWith(pn, "129") then Classification("Protection", 2)
      else FirstMatchFrom(Rules, 11, pn))
  {
    TableStep(pn, 8);
    TableStep(pn, 9);
    TableStep(pn, 10);
  }

  lemma PassiveBlock(pn: string)
    ensures FirstMatchFrom(Rules, 4, pn) == (
      if StartsWith(pn, "1211") then Classification("Inductor", 3)
      else if StartsWith(pn, "1212") then Classification("Bead", 2)
      else if StartsWith(pn, "1231") then Classification("Crystal", 2)
      else if StartsWith(pn, "1233") then Classification("Oscillator", 2)
      else if StartsWith(pn, "1252") then Classification("Transformer", 3)
      else if StartsWith(pn, "125") then Classification("Converter", 3)
      else if StartsWith(pn, "129") then Classification("Protection", 2)
      else FirstMatchFrom(Rules, 11, pn))
  {
    InductorBlock(pn);
    PowerBlock(pn);
  }

  lemma DiscreteBlock(pn: string)
    ensures FirstMatchFrom(Rules, 11, pn) == (
      if StartsWith(pn, "1304") then Classification("LED", 1)
      else if StartsWith(pn, "130") then Classification("Diode", 2)
      else if StartsWith(pn, "131") then Classification("Transistor", 3)
      else if StartsWith(pn, "132") then Classification("Thyristor", 2)
      else FirstMatchFrom(Rules, 15, pn))
  {
    TableStep(pn, 11);
    TableStep(pn, 12);
    TableStep(pn, 13);
    TableStep(pn, 14);
  }

  lemma BasicBlock(pn: string)
    ensures FirstMatchFrom(Rules, 15, pn) == (
      if StartsWith(pn, "16") then Classification("Conn/Mech", 0)
      else if StartsWith(pn, "10") then Classification("Resistor", 1)
      else if StartsWith(pn, "11") then Classification("Capacitor", 1)
      else if StartsWith(pn, "180") then Classification("Var Resistor", 1)
      else if StartsWith(pn, "15") then Classification("NETR", 0)
      else if StartsWith(pn, "003") then Classification("Test Pad", 0)
      else Other)
  {
    TableStep(pn, 15);
    TableStep(pn, 16);
    TableStep(pn, 17);
    TableStep(pn, 18);
    TableStep(pn, 19);
    TableStep(pn, 20);
  }

  /** The nested tests of `classifyPart` are exactly the first-match table. */
  lemma ClassifyPartIsFirstMatch(pn: string)
    requires pn != ""
    ensures ClassifyPart(pn) == FirstMatch(Rules, pn)
  {
    PrefixEqualsIffStartsWith(pn, "14CP");
    PrefixEqualsIffStartsWith(pn, "14MP");
    PrefixEqualsIffStartsWith(pn, "141");
    PrefixEqualsIffStartsWith(pn, "14");
    PrefixEqualsIffStartsWith(pn, "1211");
    PrefixEqualsIffStartsWith(pn, "1212");
    PrefixEqualsIffStartsWith(pn, "1231");
    PrefixEqualsIffStartsWith(pn, "1233");
    PrefixEqualsIffStartsWith(pn, "1252");
    PrefixEqualsIffStartsWith(pn, "125");
    PrefixEqualsIffStartsWith(pn, "129");
    PrefixEqualsIffStartsWith(pn, "13");
    PrefixEqualsIffStartsWith(pn, "1304");
    PrefixEqualsIffStartsWith(pn, "130");
    PrefixEqualsIffStartsWith(pn, "131");
    PrefixEqualsIffStartsWith(pn, "132");
    PrefixEqualsIffStartsWith(pn, "16");
    PrefixEqualsIffStartsWith(pn, "10");
    PrefixEqualsIffStartsWith(pn, "11");
    PrefixEqualsIffStartsWith(pn, "180");
    PrefixEqualsIffStartsWith(pn, "15");
    PrefixEqualsIffStartsWith(pn, "003");
    StartsWithTransitive(pn, "14CP", "14");
    StartsWithTransitive(pn, "14MP", "14");
    StartsWithTransitive(pn, "141", "14");
    StartsWithTransitive(pn, "1304", "13");
    StartsWithTransitive(pn, "130", "13");
    StartsWithTransitive(pn, "131", "13");
    StartsWithTransitive(pn, "132", "13");
    ProcessorBlock(pn);
    PassiveBlock(pn);
    DiscreteBlock(pn);
    BasicBlock(pn);
  }

  /** Every part number whose first two characters are "14" is one of the four
      processor / IC types, always with priority 3. */
  lemma FourteenFamily(pn: string)
    requires StartsWith(pn, "14")
    ensures ClassifyPart(pn).kind in {"CP(CHIP)", "MP(BGA CPU)", "IC/Part", "CPU"}
    ensures ClassifyPart(pn).priority == 3
  {
    ClassifyPartIsFirstMatch(pn);
    ProcessorBlock(pn);
  }

  lemma TableTransformer(pn: string)
    requires StartsWith(pn, "1252")
    ensures FirstMatch(Rules, pn) == Classification("Transformer", 3)
  {
    assert FirstMatchFrom(Rules, 0, pn) == FirstMatchFrom(Rules, 4, pn) by {
      DiffersAt(pn, "1252", "14CP", 1);
      DiffersAt(pn, "1252", "14MP", 1);
      DiffersAt(pn, "1252", "141", 1);
      DiffersAt(pn, "1252", "14", 1);
      ProcessorBlock(pn);
    }
    DiffersAt(pn, "1252", "1211", 2);
    DiffersAt(pn, "1252", "1212", 2);
    DiffersAt(pn, "1252", "1231", 2);
    DiffersAt(pn, "1252", "1233", 2);
    PassiveBlock(pn);
  }

  /** "1252" is tested before the shorter "125": first match wins. */
  lemma TransformerBeforeConverter(pn: string)
    requires StartsWith(pn, "1252")
    ensures ClassifyPart(pn) == Classification("Transformer", 3)
  {
    ClassifyPartIsFirstMatch(pn);
    TableTransformer(pn);
  }

  lemma TableLed(pn: string)
    requires StartsWith(pn, "1304")
    ensures FirstMatch(Rules, pn) == Classification("LED", 1)
  {
    assert FirstMatchFrom(Rules, 0, pn) == FirstMatchFrom(Rules, 4, pn) by {
      DiffersAt(pn, "1304", "14CP", 1);
      DiffersAt(pn, "1304", "14MP", 1);
      DiffersAt(pn, "1304", "141", 1);
      DiffersAt(pn, "1304", "14", 1);
      ProcessorBlock(pn);
    }
    assert FirstMatchFrom(Rules, 4, pn) == FirstMatchFrom(Rules, 11, pn) by {
      DiffersAt(pn, "1304", "1211", 1);
      DiffersAt(pn, "1304", "1212", 1);
      DiffersAt(pn, "1304", "1231", 1);
      DiffersAt(pn, "1304", "1233", 1);
      DiffersAt(pn, "1304", "1252", 1);
      DiffersAt(pn, "1304", "125", 1);
      DiffersAt(pn, "1304", "129", 1);
      PassiveBlock(pn);
    }
    DiscreteBlock(pn);
  }

  /** "1304" is tested before the shorter "130": first match wins. */
  lemma LedBeforeDiode(pn: string)
    requires StartsWith(pn, "1304")
    ensures ClassifyPart(pn) == Classification("LED", 1)
  {
    ClassifyPartIsFirstMatch(pn);
    TableLed(pn);
  }

  /** A non-empty number that starts with no prefix of the table is `Other`. */
  lemma UnlistedIsOther(pn: string)
    requires pn != ""
    requires forall j :: 0 <= j < |Rules| ==> !Matches(Rules, j, pn)
    ensures ClassifyPart(pn) == Other
  {
    ClassifyPartIsFirstMatch(pn);
    FirstMatchIsFirst(Rules, pn);
  }

  /** A "13" number matching none of the discrete-semiconductor prefixes
      falls through the later tests and ends as `Other`. */
  lemma ThirteenFallsThrough(pn: string)
    requires StartsWith(pn, "13")
    requires !StartsWith(pn, "130") && !StartsWith(pn, "131") && !StartsWith(pn, "132")
    ensures ClassifyPart(pn) == Other
  {
    ClassifyPartIsFirstMatch(pn);
    TableThirteen(pn);
  }

  lemma TableThirteen(pn: string)
    requires StartsWith(pn, "13")
    requires !StartsWith(pn, "130") && !StartsWith(pn, "131") && !StartsWith(pn, "132")
    ensures FirstMatch(Rules, pn) == Other
  {
    assert FirstMatchFrom(Rules, 0, pn) == FirstMatchFrom(Rules, 4, pn) by {
      DiffersAt(pn, "13", "14CP", 1);
      DiffersAt(pn, "13", "14MP", 1);
      DiffersAt(pn, "13", "141", 1);
      DiffersAt(pn, "13", "14", 1);
      ProcessorBlock(pn);
    }
    assert FirstMatchFrom(Rules, 4, pn) == FirstMatchFrom(Rules, 11, pn) by {
      DiffersAt(pn, "13", "1211", 1);
      DiffersAt(pn, "13", "1212", 1);
      DiffersAt(pn, "13", "1231", 1);
      DiffersAt(pn, "13", "1233", 1);
      DiffersAt(pn, "13", "1252", 1);
      DiffersAt(pn, "13", "125", 1);
      DiffersAt(pn, "13", "129", 1);
      PassiveBlock(pn);
    }
    assert FirstMatchFrom(Rules, 11, pn) == FirstMatchFrom(Rules, 15, pn) by {
      StartsWithTransitive(pn, "1304", "130");
      DiscreteBlock(pn);
    }
    DiffersAt(pn, "13", "16", 1);
    DiffersAt(pn, "13", "10", 1);
    DiffersAt(pn, "13", "11", 1);
    DiffersAt(pn, "13", "180", 1);
    DiffersAt(pn, "13", "15", 1);
    DiffersAt(pn, "13", "003", 0);
    BasicBlock(pn);
  }
}

=== FILE: compare.dfy ===
/** How the pieces meet: two exports are parsed, each snapshot's parts are
    indexed by net, and the indexes and part lists are diffed; the net view
    then lists one bucket of the net diff at a time. */
module Compare {
  import opened Types
  import opened Parser
  import opened NetIndex
  import opened NetDiff
  import opened NetView

  /** A net index built from parsed parts has no net named "" or "NC". */
  lemma {:induction false} ParsedIndexClean(parts: seq<Part>, le: (string, string) -> bool)
    requires forall p :: p in parts ==> Normalised(p)
    ensures forall n :: n in BuildNetMap(parts, le).nets ==> n != "" && n != "NC"
  {
    forall k, i | 0 <= k < |parts| && 0 <= i < |parts[k].pins|
      ensures parts[k].pins[i].net != "" && parts[k].pins[i].net != "NC"
    {
      assert parts[k] in parts;
      assert parts[k].pins[i] in parts[k].pins;
    }
  }

  /** The dashboard's net count of a parsed snapshot is the number of nets in its index. */
  lemma ParsedNetCount(json: RawJson, encoding: string, pinCount: int, le: (string, string) -> bool)
    ensures var snap := ParseOrCad(json, encoding, pinCount);
      snap.stats.nets == |BuildNetMap(snap.parts, le).order| == |BuildNetMap(snap.parts, le).nets|
  {
    var snap := ParseOrCad(json, encoding, pinCount);
    var m := BuildNetMap(snap.parts, le);
    ConnectionCount(snap.parts, le);
    assert GlobalNets(snap.parts) == PinNets(snap.parts);
    assert m.nets.Keys == PinNets(snap.parts);
  }

  /** Every net in a list of the diff of two parsed snapshots has a name other than "". */
  lemma DiffNamesClean(oldParts: seq<Part>, newParts: seq<Part>, le: (string, string) -> bool)
    requires forall p :: p in oldParts ==> Normalised(p)
    requires forall p :: p in newParts ==> Normalised(p)
    ensures var r := CompareNets(oldParts, newParts, le);
      && (forall n :: n in r.added ==> n.name != "")
      && (forall n :: n in r.deleted ==> n.name != "")
      && (forall n :: n in r.unconnected ==> n.name != "")
  {
    ParsedIndexClean(oldParts, le);
    ParsedIndexClean(newParts, le);
  }

  /** The text filter never throws on any tab of the net diff of two parsed exports. */
  lemma ParsedFilterNeverThrows(oldJson: RawJson, newJson: RawJson, encoding: string, oldPins: int, newPins: int,
                                le: (string, string) -> bool, tab: Tab, filter: string)
    ensures var r := CompareNets(ParseOrCad(oldJson, encoding, oldPins).parts, ParseOrCad(newJson, encoding, newPins).parts, le);
      FilterRows(TabRows(r, tab), filter).Rows?
  {
    var r := CompareNets(ParseOrCad(oldJson, encoding, oldPins).parts, ParseOrCad(newJson, encoding, newPins).parts, le);
    DiffNamesClean(ParseOrCad(oldJson, encoding, oldPins).parts, ParseOrCad(newJson, encoding, newPins).parts, le);
    if tab != MismatchTab && filter != "" {
      var nets := match tab
        case AddedTab => r.added
        case DeletedTab => r.deleted
        case _ => r.unconnected;
      assert TabRows(r, tab) == NetRows(nets);
      FilterOnNetTab(nets, filter);
    }
  }

  /** Each tab's badge is the length of the list the tab shows. */
  lemma TabCountIsListLength(oldM: NetMap, newM: NetMap, tab: Tab)
    requires Valid(oldM) && Valid(newM)
    ensures TabCount(Diff(oldM, newM), tab) == |TabRows(Diff(oldM, newM), tab)|
  {
  }
}

=== FILE: component_diff.dfy ===
/** The component diff of two snapshots (the body of `compCompareResults`).

    Each side is indexed by reference designator, later parts overwriting
    earlier ones with the same reference. Every new part whose reference the
    old index lacks is added; otherwise it is paired with the old part stored
    under its reference and checked, independently, for a different
    footprint, value and part number. Every old part whose reference the new
    index lacks is removed. */
module ComponentDiff {
  import opened Types
  import opened Seqs

  /** The reference designators of the parts. */
  function RefsOf(parts: seq<Part>): set<string>
  {
    set p | p in parts :: p.ref
  }

  /** `new Map(parts.map(p => [p.ref, p]))`: every part is stored under its reference. */
  function Lookup(parts: seq<Part>): (m: map<string, Part>)
    ensures m.Keys == RefsOf(parts)
    ensures forall r :: r in m ==> m[r].ref == r && m[r] in parts
  {
    if parts == [] then map[]
    else
      var init := parts[..|parts| - 1];
      var p := parts[|parts| - 1];
      assert parts == init + [p];
      Lookup(init)[p.ref := p]
  }

  /** Last write wins: the part stored under a reference is the last part carrying it. */
  lemma {:induction false} LookupIsLastWrite(parts: seq<Part>, i: nat)
    requires i < |parts|
    requires forall j :: i < j < |parts| ==> parts[j].ref != parts[i].ref
    ensures Lookup(parts)[parts[i].ref] == parts[i]
  {
    var init := parts[..|parts| - 1];
    if i < |parts| - 1 {
      assert forall j :: i < j < |init| ==> init[j] == parts[j];
      LookupIsLastWrite(init, i);
      assert init[i] == parts[i];
    }
  }

  /** `d` pairs a new part with the old part stored under its reference. */
  predicate Paired(oldMap: map<string, Part>, newParts: seq<Part>, d: CompDiff)
  {
    && d.newPart in newParts
    && d.newPart.ref in oldMap
    && d.oldPart == oldMap[d.newPart.ref]
    && d.ref == d.newPart.ref
    && d.page == d.newPart.page
  }

  /** What the walk over the new parts collects. */
  datatype NewScan = NewScan(added: seq<Part>, footprintDiff: seq<CompDiff>, valueDiff: seq<CompDiff>, pnDiff: seq<CompDiff>)

  /** The walk over the new parts, one part per turn. */
  function ScanParts(newParts: seq<Part>, oldMap: map<string, Part>): (r: NewScan)
    ensures forall p :: p in r.added <==> p in newParts && p.ref !in oldMap
    ensures forall d :: d in r.footprintDiff <==> Paired(oldMap, newParts, d) && d.newPart.footprint != d.oldPart.footprint
    ensures forall d :: d in r.valueDiff <==> Paired(oldMap, newParts, d) && d.newPart.value != d.oldPart.value
    ensures forall d :: d in r.pnDiff <==> Paired(oldMap, newParts, d) && d.newPart.pn != d.oldPart.pn
  {
    if newParts == [] then NewScan([], [], [], [])
    else
      var init := newParts[..|newParts| - 1];
      var np := newParts[|newParts| - 1];
      assert newParts == init + [np];
      var prev := ScanParts(init, oldMap);
      if np.ref !in oldMap then
        NewScan(prev.added + [np], prev.footprintDiff, prev.valueDiff, prev.pnDiff)
      else
        var op := oldMap[np.ref];
        var d := CompDiff(np.ref, np.page, op, np);
        NewScan(prev.added,
          prev.footprintDiff + (if np.footprint != op.footprint then [d] else []),
          prev.valueDiff + (if np.value != op.value then [d] else []),
          prev.pnDiff + (if np.pn != op.pn then [d] else []))
  }

  /** The reference is missing from the other side's index. */
  function Unmatched(m: map<string, Part>): Part -> bool
  {
    (p: Part) => p.ref !in m
  }

  /** The component diff of an old and a new part list. */
  function Compare(oldParts: seq<Part>, newParts: seq<Part>): (r: CompCompareResults)
    ensures forall p :: p in r.added <==> p in newParts && p.ref !in RefsOf(oldParts)
    ensures forall p :: p in r.removed <==> p in oldParts && p.ref !in RefsOf(newParts)
    ensures forall d :: d in r.footprintDiff <==> Paired(Lookup(oldParts), newParts, d) && d.newPart.footprint != d.oldPart.footprint
    ensures forall d :: d in r.valueDiff <==> Paired(Lookup(oldParts), newParts, d) && d.newPart.value != d.oldPart.value
    ensures forall d :: d in r.pnDiff <==> Paired(Lookup(oldParts), newParts, d) && d.newPart.pn != d.oldPart.pn
    ensures r.stats == CompStats(|r.added|, |r.removed|, |r.footprintDiff|, |r.valueDiff|, |r.pnDiff|)
  {
    var oldMap := Lookup(oldParts);
    var newMap := Lookup(newParts);
    var scan := ScanParts(newParts, oldMap);
    var removed := Filter(oldParts, Unmatched(newMap));
    CompCompareResults(scan.added, removed, scan.footprintDiff, scan.valueDiff, scan.pnDiff,
      CompStats(|scan.added|, |removed|, |scan.footprintDiff|, |scan.valueDiff|, |scan.pnDiff|))
  }

  /* ---------------------------------------------------------------------
     Laws
     --------------------------------------------------------------------- */

  /** An added part's reference appears in none of the three property lists. */
  lemma AddedInNoDiff(oldParts: seq<Part>, newParts: seq<Part>)
    ensures forall p, d :: p in Compare(oldParts, newParts).added && d in Compare(oldParts, newParts).footprintDiff ==> d.ref != p.ref
    ensures forall p, d :: p in Compare(oldParts, newParts).added && d in Compare(oldParts, newParts).valueDiff ==> d.ref != p.ref
    ensures forall p, d :: p in Compare(oldParts, newParts).added && d in Compare(oldParts, newParts).pnDiff ==> d.ref != p.ref
  {
  }

  /** Output order: `added` and `removed` keep the order of their input lists. */
  lemma {:induction false} ScanAddedOrder(newParts: seq<Part>, oldMap: map<string, Part>)
    ensures ScanParts(newParts, oldMap).added == Filter(newParts, Unmatched(oldMap))
  {
    if newParts != [] {
      var init := newParts[..|newParts| - 1];
      var np := newParts[|newParts| - 1];
      assert newParts == init + [np];
      ScanAddedOrder(init, oldMap);
      FilterSnoc(init, np, Unmatched(oldMap));
    }
  }

  /** The compared properties, as accessors. */
  function Footprint(): Part -> string { (p: Part) => p.footprint }
  function Value(): Part -> string { (p: Part) => p.value }
  function PartNumber(): Part -> string { (p: Part) => p.pn }

  /** A new part is paired with an old one, and `prop` differs between the two. */
  function Changed(oldMap: map<string, Part>, prop: Part -> string): Part -> bool
  {
    (np: Part) => np.ref in oldMap && prop(oldMap[np.ref]) != prop(np)
  }

  /** One entry per paired new part, in the order given: the reference and page of the
      new part, the old part stored under its reference, and the new part. */
  function Entries(oldMap: map<string, Part>, ps: seq<Part>): (r: seq<CompDiff>)
    requires forall p :: p in ps ==> p.ref in oldMap
    ensures |r| == |ps|
  {
    seq(|ps|, i requires 0 <= i < |ps| => CompDiff(ps[i].ref, ps[i].page, oldMap[ps[i].ref], ps[i]))
  }

  /** One more new part adds at most one entry, at the end. */
  lemma EntriesStep(init: seq<Part>, np: Part, oldMap: map<string, Part>, prop: Part -> string)
    ensures Entries(oldMap, Filter(init + [np], Changed(oldMap, prop)))
      == Entries(oldMap, Filter(init, Changed(oldMap, prop)))
         + (if np.ref in oldMap && prop(oldMap[np.ref]) != prop(np)
            then [CompDiff(np.ref, np.page, oldMap[np.ref], np)] else [])
  {
    var f := Changed(oldMap, prop);
    FilterSnoc(init, np, f);
    EntriesAppend(oldMap, Filter(init, f), if f(np) then [np] else []);
  }

  lemma EntriesAppend(oldMap: map<string, Part>, a: seq<Part>, b: seq<Part>)
    requires forall p :: p in a ==> p.ref in oldMap
    requires forall p :: p in b ==> p.ref in oldMap
    ensures Entries(oldMap, a + b) == Entries(oldMap, a) + Entries(oldMap, b)
  {
  }

  /** Output order: each property list holds one entry per paired new part whose property
      differs, in new-part order, so duplicates in the new list are reported twice. */
  lemma {:induction false} ScanDiffOrder(newParts: seq<Part>, oldMap: map<string, Part>)
    ensures ScanParts(newParts, oldMap).footprintDiff == Entries(oldMap, Filter(newParts, Changed(oldMap, Footprint())))
    ensures ScanParts(newParts, oldMap).valueDiff == Entries(oldMap, Filter(newParts, Changed(oldMap, Value())))
    ensures ScanParts(newParts, oldMap).pnDiff == Entries(oldMap, Filter(newParts, Changed(oldMap, PartNumber())))
  {
    if newParts != [] {
      var init := newParts[..|newParts| - 1];
      var np := newParts[|newParts| - 1];
      assert newParts == init + [np];
      ScanDiffOrder(init, oldMap);
      EntriesStep(init, np, oldMap, Footprint());
      EntriesStep(init, np, oldMap, Value());
      EntriesStep(init, np, oldMap, PartNumber());
    }
  }

  lemma CompareOrder(oldParts: seq<Part>, newParts: seq<Part>)
    ensures Compare(oldParts, newParts).added == Filter(newParts, Unmatched(Lookup(oldParts)))
    ensures Compare(oldParts, newParts).removed == Filter(oldParts, Unmatched(Lookup(newParts)))
    ensures Compare(oldParts, newParts).footprintDiff == Entries(Lookup(oldParts), Filter(newParts, Changed(Lookup(oldParts), Footprint())))
    ensures Compare(oldParts, newParts).valueDiff == Entries(Lookup(oldParts), Filter(newParts, Changed(Lookup(oldParts), Value())))
    ensures Compare(oldParts, newParts).pnDiff == Entries(Lookup(oldParts), Filter(newParts, Changed(Lookup(oldParts), PartNumber())))
  {
    ScanAddedOrder(newParts, Lookup(oldParts));
    ScanDiffOrder(newParts, Lookup(oldParts));
  }

  /** No two parts share a reference. */
  predicate UniqueRefs(parts: seq<Part>)
  {
    forall i, j :: 0 <= i < j < |parts| ==> parts[i].ref != parts[j].ref
  }

  /** With unique references every part is the one stored under its reference. */
  lemma LookupUnique(parts: seq<Part>)
    requires UniqueRefs(parts)
    ensures forall p :: p in parts ==> Lookup(parts)[p.ref] == p
  {
    forall p | p in parts
      ensures Lookup(parts)[p.ref] == p
    {
      var i :| 0 <= i < |parts| && parts[i] == p;
      LookupIsLastWrite(parts, i);
    }
  }

  /** Self-diff: with unique references, comparing a part list with itself reports nothing. */
  lemma SelfDiffUnique(parts: seq<Part>)
    requires UniqueRefs(parts)
    ensures Compare(parts, parts).added == [] && Compare(parts, parts).removed == []
    ensures Compare(parts, parts).footprintDiff == [] && Compare(parts, parts).valueDiff == []
    ensures Compare(parts, parts).pnDiff == []
  {
    var r := Compare(parts, parts);
    LookupUnique(parts);
    NoMembersMeansEmpty(r.added);
    NoMembersMeansEmpty(r.removed);
    NoMembersMeansEmpty(r.footprintDiff);
    NoMembersMeansEmpty(r.valueDiff);
    NoMembersMeansEmpty(r.pnDiff);
  }

  /** Self-diff needs unique references: when two parts share a reference and differ in
      value, the earlier one is compared with the later one and a value change is reported. */
  lemma DuplicateRefSelfDiff(a: Part, b: Part)
    requires a.ref == b.ref && a.value != b.value
    ensures CompDiff(a.ref, a.page, b, a) in Compare([a, b], [a, b]).valueDiff
    ensures Compare([a, b], [a, b]).added == [] && Compare([a, b], [a, b]).removed == []
  {
    var parts := [a, b];
    var r := Compare(parts, parts);
    assert Lookup(parts)[a.ref] == b by {
      LookupIsLastWrite(parts, 1);
    }
    assert Paired(Lookup(parts), parts, CompDiff(a.ref, a.page, b, a));
    NoMembersMeansEmpty(r.added);
    NoMembersMeansEmpty(r.removed);
  }

  /** The property axes are independent: a part whose footprint alone changed is reported
      in `footprintDiff` and nowhere else. */
  lemma FootprintOnlyChange(a: Part, footprint: string)
    requires footprint != a.footprint
    ensures var b := a.(footprint := footprint);
      && Compare([a], [b]).footprintDiff == [CompDiff(a.ref, a.page, a, b)]
      && Compare([a], [b]).valueDiff == [] && Compare([a], [b]).pnDiff == []
      && Compare([a], [b]).added == [] && Compare([a], [b]).removed == []
  {
    var b := a.(footprint := footprint);
    assert [a][..0] == [] && [b][..0] == [];
    assert Lookup([a]) == map[a.ref := a];
    assert Lookup([b]) == map[a.ref := b];
    var d := CompDiff(a.ref, a.page, a, b);
    assert ScanParts([b], Lookup([a])) == NewScan([], [d], [], []) by {
      assert ScanParts([b][..0], Lookup([a])) == NewScan([], [], [], []);
    }
    var r := Compare([a], [b]);
    NoMembersMeansEmpty(r.valueDiff);
    NoMembersMeansEmpty(r.pnDiff);
    NoMembersMeansEmpty(r.added);
    NoMembersMeansEmpty(r.removed);
  }
}

=== FILE: net_diff.dfy ===
/** The net diff of two snapshots (the body of `netCompareResults`).

    The new index is walked in key order: a net with fewer than two distinct
    references is reported as unconnected, independently of the rest; a net
    whose name the old index lacks is added; otherwise, when the signatures
    differ, the pair is a mismatch. The old index is then walked for names
    the new index lacks: those nets are deleted. */
module NetDiff {
  import opened Types
  import opened Seqs
  import opened NetIndex

  /** The distinct references among a net's connections. */
  function Refs(pins: seq<NetConnection>): set<string>
  {
    set c | c in pins :: c.ref
  }

  /** Fewer than two distinct parts touch the net. */
  predicate Unconnected(n: NetObject)
  {
    |Refs(n.pins)| < 2
  }

  /** Every listed name is a key of `m` whose net carries that name. */
  ghost predicate Keyed(order: seq<string>, m: NetMap)
  {
    forall k :: k in order ==> k in m.nets && m.nets[k].name == k
  }

  /** What the walk over the new index collects. */
  datatype NewScan = NewScan(mismatch: seq<NetMismatch>, added: seq<NetObject>, unconnected: seq<NetObject>)

  /** The walk over the keys `order` of the new index, one key per turn. */
  function ScanNew(order: seq<string>, oldM: NetMap, newM: NetMap): (r: NewScan)
    requires Keyed(order, newM)
    ensures forall n :: n in r.added <==> n.name in order && n == newM.nets[n.name] && n.name !in oldM.nets
    ensures forall x :: x in r.mismatch <==>
      && x.name in order && x.name in oldM.nets
      && x.oldNet == oldM.nets[x.name] && x.newNet == newM.nets[x.name]
      && x.oldNet.signature != x.newNet.signature
    ensures forall n :: n in r.unconnected <==> n.name in order && n == newM.nets[n.name] && Unconnected(n)
  {
    if order == [] then NewScan([], [], [])
    else
      var init := order[..|order| - 1];
      var k := order[|order| - 1];
      assert order == init + [k];
      var prev := ScanNew(init, oldM, newM);
      var n := newM.nets[k];
      var unconnected := prev.unconnected + (if Unconnected(n) then [n] else []);
      if k !in oldM.nets then
        NewScan(prev.mismatch, prev.added + [n], unconnected)
      else if oldM.nets[k].signature != n.signature then
        NewScan(prev.mismatch + [NetMismatch(k, oldM.nets[k], n)], prev.added, unconnected)
      else
        NewScan(prev.mismatch, prev.added, unconnected)
  }

  /** The walk over the keys `order` of the old index: the nets the new index lacks. */
  function ScanOld(order: seq<string>, oldM: NetMap, newM: NetMap): (deleted: seq<NetObject>)
    requires Keyed(order, oldM)
    ensures forall n :: n in deleted <==> n.name in order && n == oldM.nets[n.name] && n.name !in newM.nets
  {
    if order == [] then []
    else
      var init := order[..|order| - 1];
      var k := order[|order| - 1];
      assert order == init + [k];
      ScanOld(init, oldM, newM) + (if k !in newM.nets then [oldM.nets[k]] else [])
  }

  /** The net diff of an old and a new index. */
  function Diff(oldM: NetMap, newM: NetMap): (r: NetCompareResults)
    requires Valid(oldM) && Valid(newM)
    ensures forall n :: n in r.added <==> n.name in newM.nets && n == newM.nets[n.name] && n.name !in oldM.nets
    ensures forall x :: x in r.mismatch <==>
      && x.name in newM.nets && x.name in oldM.nets
      && x.oldNet == oldM.nets[x.name] && x.newNet == newM.nets[x.name]
      && x.oldNet.signature != x.newNet.signature
    ensures forall n :: n in r.deleted <==> n.name in oldM.nets && n == oldM.nets[n.name] && n.name !in newM.nets
    ensures forall n :: n in r.unconnected <==> n.name in newM.nets && n == newM.nets[n.name] && Unconnected(n)
    ensures r.stats == NetStats(|r.mismatch|, |r.added|, |r.deleted|, |r.unconnected|)
  {
    var scan := ScanNew(newM.order, oldM, newM);
    var deleted := ScanOld(oldM.order, oldM, newM);
    NetCompareResults(scan.mismatch, scan.added, deleted, scan.unconnected,
      NetStats(|scan.mismatch|, |scan.added|, |deleted|, |scan.unconnected|))
  }

  /** The net diff of the parts of two snapshots. */
  function CompareNets(oldParts: seq<Part>, newParts: seq<Part>, le: (string, string) -> bool): NetCompareResults
  {
    Diff(BuildNetMap(oldParts, le), BuildNetMap(newParts, le))
  }

  /* ---------------------------------------------------------------------
     Bucket laws
     --------------------------------------------------------------------- */

  /** No name is in two of `added`, `mismatch` and `deleted`. */
  lemma BucketsDisjoint(oldM: NetMap, newM: NetMap)
    requires Valid(oldM) && Valid(newM)
    ensures forall n, x :: n in Diff(oldM, newM).added && x in Diff(oldM, newM).mismatch ==> n.name != x.name
    ensures forall n, d :: n in Diff(oldM, newM).added && d in Diff(oldM, newM).deleted ==> n.name != d.name
    ensures forall x, d :: x in Diff(oldM, newM).mismatch && d in Diff(oldM, newM).deleted ==> x.name != d.name
  {
  }

  /** A name present in both indexes with equal signatures is in none of `added`,
      `mismatch` and `deleted`; it can only be reported as unconnected. */
  lemma SameSignatureOnlyUnconnected(oldM: NetMap, newM: NetMap, k: string)
    requires Valid(oldM) && Valid(newM)
    requires k in oldM.nets && k in newM.nets
    requires oldM.nets[k].signature == newM.nets[k].signature
    ensures forall n :: n in Diff(oldM, newM).added ==> n.name != k
    ensures forall x :: x in Diff(oldM, newM).mismatch ==> x.name != k
    ensures forall n :: n in Diff(oldM, newM).deleted ==> n.name != k
    ensures newM.nets[k] in Diff(oldM, newM).unconnected <==> Unconnected(newM.nets[k])
  {
  }

  /** Diffing an index with itself reports no added, deleted or mismatched net; the
      unconnected list still reports every net with fewer than two references. */
  lemma SelfDiff(m: NetMap)
    requires Valid(m)
    ensures Diff(m, m).added == [] && Diff(m, m).deleted == [] && Diff(m, m).mismatch == []
    ensures forall n :: n in Diff(m, m).unconnected <==> n.name in m.nets && n == m.nets[n.name] && Unconnected(n)
  {
    var r := Diff(m, m);
    NoMembersMeansEmpty(r.added);
    NoMembersMeansEmpty(r.deleted);
    NoMembersMeansEmpty(r.mismatch);
  }

  /* ---------------------------------------------------------------------
     Output order and counts
     --------------------------------------------------------------------- */

  function NetNames(ns: seq<NetObject>): seq<string>
  {
    seq(|ns|, i requires 0 <= i < |ns| => ns[i].name)
  }

  function MismatchNames(xs: seq<NetMismatch>): seq<string>
  {
    seq(|xs|, i requires 0 <= i < |xs| => xs[i].name)
  }

  lemma NetNamesSnoc(ns: seq<NetObject>, n: NetObject)
    ensures NetNames(ns + [n]) == NetNames(ns) + [n.name]
  {
    assert forall i :: 0 <= i < |ns| ==> (ns + [n])[i] == ns[i];
  }

  lemma MismatchNamesSnoc(xs: seq<NetMismatch>, x: NetMismatch)
    ensures MismatchNames(xs + [x]) == MismatchNames(xs) + [x.name]
  {
    assert forall i :: 0 <= i < |xs| ==> (xs + [x])[i] == xs[i];
  }

  /** The name lacks from the other index. */
  function Absent(m: NetMap): string -> bool
  {
    k => k !in m.nets
  }

  /** The name is in both indexes with different signatures. */
  function Changed(oldM: NetMap, newM: NetMap): string -> bool
  {
    k => k in oldM.nets && k in newM.nets && oldM.nets[k].signature != newM.nets[k].signature
  }

  /** The name is a key of the index whose net has fewer than two distinct references. */
  function Loose(m: NetMap): string -> bool
  {
    k => k in m.nets && Unconnected(m.nets[k])
  }

  /** Each list follows the key order of the index it was taken from. */
  lemma {:induction false} ScanNewAddedOrder(order: seq<string>, oldM: NetMap, newM: NetMap)
    requires Keyed(order, newM)
    ensures NetNames(ScanNew(order, oldM, newM).added) == Filter(order, Absent(oldM))
  {
    if order != [] {
      var init := order[..|order| - 1];
      var k := order[|order| - 1];
      assert order == init + [k];
      ScanNewAddedOrder(init, oldM, newM);
      FilterSnoc(init, k, Absent(oldM));
      var prev := ScanNew(init, oldM, newM).added;
      if k !in oldM.nets {
        NetNamesSnoc(prev, newM.nets[k]);
      }
    }
  }

  lemma {:induction false} ScanNewMismatchOrder(order: seq<string>, oldM: NetMap, newM: NetMap)
    requires Keyed(order, newM)
    ensures MismatchNames(ScanNew(order, oldM, newM).mismatch) == Filter(order, Changed(oldM, newM))
  {
    if order != [] {
      var init := order[..|order| - 1];
      var k := order[|order| - 1];
      assert order == init + [k];
      ScanNewMismatchOrder(init, oldM, newM);
      FilterSnoc(init, k, Changed(oldM, newM));
      var prev := ScanNew(init, oldM, newM).mismatch;
      if Changed(oldM, newM)(k) {
        var x := NetMismatch(k, oldM.nets[k], newM.nets[k]);
        MismatchNamesSnoc(prev, x);
      }
    }
  }

  lemma {:induction false} ScanNewUnconnectedOrder(order: seq<string>, oldM: NetMap, newM: NetMap)
    requires Keyed(order, newM)
    ensures NetNames(ScanNew(order, oldM, newM).unconnected) == Filter(order, Loose(newM))
  {
    if order != [] {
      var init := order[..|order| - 1];
      var k := order[|order| - 1];
      assert order == init + [k];
      ScanNewUnconnectedOrder(init, oldM, newM);
      FilterSnoc(init, k, Loose(newM));
      var prev := ScanNew(init, oldM, newM).unconnected;
      var n := newM.nets[k];
      assert ScanNew(order, oldM, newM).unconnected == prev + (if Unconnected(n) then [n] else []);
      assert Loose(newM)(k) == Unconnected(n);
      if Unconnected(n) {
        NetNamesSnoc(prev, n);
      } else {
        assert prev + [] == prev;
      }
    }
  }

  lemma {:induction false} ScanOldOrder(order: seq<string>, oldM: NetMap, newM: NetMap)
    requires Keyed(order, oldM)
    ensures NetNames(ScanOld(order, oldM, newM)) == Filter(order, Absent(newM))
  {
    if order != [] {
      var init := order[..|order| - 1];
      var k := order[|order| - 1];
      assert order == init + [k];
      ScanOldOrder(init, oldM, newM);
      FilterSnoc(init, k, Absent(newM));
      var prev := ScanOld(init, oldM, newM);
      if k !in newM.nets {
        NetNamesSnoc(prev, oldM.nets[k]);
      }
    }
  }

  /** Output order: the added, mismatched and unconnected nets in the key order of the new
      index, the deleted nets in the key order of the old index. */
  lemma DiffOrder(oldM: NetMap, newM: NetMap)
    requires Valid(oldM) && Valid(newM)
    ensures NetNames(Diff(oldM, newM).added) == Filter(newM.order, Absent(oldM))
    ensures MismatchNames(Diff(oldM, newM).mismatch) == Filter(newM.order, Changed(oldM, newM))
    ensures NetNames(Diff(oldM, newM).deleted) == Filter(oldM.order, Absent(newM))
    ensures NetNames(Diff(oldM, newM).unconnected) == Filter(newM.order, Loose(newM))
  {
    ScanNewAddedOrder(newM.order, oldM, newM);
    ScanNewUnconnectedOrder(newM.order, oldM, newM);
    ScanNewMismatchOrder(newM.order, oldM, newM);
    ScanOldOrder(oldM.order, oldM, newM);
  }

  /** The size of a list whose names are a filtered key order is the number of keys passing the filter. */
  lemma FilteredKeysCount(order: seq<string>, keys: set<string>, f: string -> bool, names: seq<string>, target: set<string>)
    requires Distinct(order)
    requires forall k :: k in order <==> k in keys
    requires names == Filter(order, f)
    requires forall k :: k in target <==> k in keys && f(k)
    ensures |names| == |target|
  {
    FilterDistinct(order, f);
    DistinctCardinality(names);
    assert (set k | k in names) == target;
  }

  /** The counters: added = new names minus old names, deleted = old names minus new names,
      mismatch = shared names whose signatures differ. */
  lemma AddedCount(oldM: NetMap, newM: NetMap)
    requires Valid(oldM) && Valid(newM)
    ensures Diff(oldM, newM).stats.added == |newM.nets.Keys - oldM.nets.Keys|
  {
    var names := NetNames(Diff(oldM, newM).added);
    ScanNewAddedOrder(newM.order, oldM, newM);
    FilteredKeysCount(newM.order, newM.nets.Keys, Absent(oldM), names, newM.nets.Keys - oldM.nets.Keys);
  }

  lemma DeletedCount(oldM: NetMap, newM: NetMap)
    requires Valid(oldM) && Valid(newM)
    ensures Diff(oldM, newM).stats.deleted == |oldM.nets.Keys - newM.nets.Keys|
  {
    var names := NetNames(Diff(oldM, newM).deleted);
    ScanOldOrder(oldM.order, oldM, newM);
    FilteredKeysCount(oldM.order, oldM.nets.Keys, Absent(newM), names, oldM.nets.Keys - newM.nets.Keys);
  }

  lemma MismatchCount(oldM: NetMap, newM: NetMap)
    requires Valid(oldM) && Valid(newM)
    ensures Diff(oldM, newM).stats.mismatch ==
      |set k | k in newM.nets && k in oldM.nets && oldM.nets[k].signature != newM.nets[k].signature|
  {
    var names := MismatchNames(Diff(oldM, newM).mismatch);
    var target := set k | k in newM.nets && k in oldM.nets && oldM.nets[k].signature != newM.nets[k].signature;
    ScanNewMismatchOrder(newM.order, oldM, newM);
    FilteredKeysCount(newM.order, newM.nets.Keys, Changed(oldM, newM), names, target);
  }

  lemma UnconnectedCount(oldM: NetMap, newM: NetMap)
    requires Valid(oldM) && Valid(newM)
    ensures Diff(oldM, newM).stats.unconnected == |set k | k in newM.nets && Unconnected(newM.nets[k])|
  {
    var names := NetNames(Diff(oldM, newM).unconnected);
    var target := set k | k in newM.nets && Unconnected(newM.nets[k]);
    ScanNewUnconnectedOrder(newM.order, oldM, newM);
    FilteredKeysCount(newM.order, newM.nets.Keys, Loose(newM), names, target);
  }
}

=== FILE: net_index.dfy ===
/** `buildNetMap`: the net index of one snapshot.

    Every pin of every part contributes one connection record to the net it
    names. The source walks the parts, then each part's pins, creating a net
    the first time its name is seen; afterwards it sorts every net's
    connections by reference designator and writes the topology signature.

    The walk is modelled in two steps: `Contributions` flattens the parts into
    the sequence of pin contributions in visiting order, and `Gather` folds
    that sequence into a `RawIndex` exactly as the loop body does. `Finish`
    then seals each net. The reference comparator (`localeCompare` with
    numeric collation) is the parameter `le`. */
module NetIndex {
  import opened Types
  import opened Seqs
  import opened Strings
  import opened StableSort

  /* ---------------------------------------------------------------------
     Pin contributions
     --------------------------------------------------------------------- */

  /** The connection record a pin of `part` adds to its net. */
  function Connect(part: Part, pin: Pin): NetConnection
  {
    NetConnection(part.ref, pin.num, pin.name, part.classification.kind, part.pn, part.value, part.footprint)
  }

  /** What one pin contributes: the net it joins, the page of its part and its connection record. */
  datatype Contribution = Contribution(net: string, page: string, conn: NetConnection)

  function Contribute(part: Part, pin: Pin): Contribution
  {
    Contribution(pin.net, part.page, Connect(part, pin))
  }

  function PartContributions(part: Part): seq<Contribution>
  {
    seq(|part.pins|, i requires 0 <= i < |part.pins| => Contribute(part, part.pins[i]))
  }

  /** The number of pins over all parts. */
  function TotalPins(parts: seq<Part>): nat
  {
    if parts == [] then 0 else TotalPins(parts[..|parts| - 1]) + |parts[|parts| - 1].pins|
  }

  /** The contributions in visiting order: parts in order, each part's pins in order. */
  function Contributions(parts: seq<Part>): (cs: seq<Contribution>)
    ensures |cs| == TotalPins(parts)
  {
    if parts == [] then []
    else Contributions(parts[..|parts| - 1]) + PartContributions(parts[|parts| - 1])
  }

  /** The net names the pins of the parts are bound to. */
  function PinNets(parts: seq<Part>): set<string>
  {
    set k, i | 0 <= k < |parts| && 0 <= i < |parts[k].pins| :: parts[k].pins[i].net
  }

  /** Each contribution comes from one pin of one part, and each pin of each part contributes. */
  lemma {:induction false} ContributionsOfParts(parts: seq<Part>)
    ensures forall c :: c in Contributions(parts) <==>
      exists k, i :: 0 <= k < |parts| && 0 <= i < |parts[k].pins| && c == Contribute(parts[k], parts[k].pins[i])
  {
    if parts != [] {
      var init := parts[..|parts| - 1];
      var p := parts[|parts| - 1];
      ContributionsOfParts(init);
      assert Contributions(parts) == Contributions(init) + PartContributions(p);
      forall c | c in Contributions(parts)
        ensures exists k, i :: 0 <= k < |parts| && 0 <= i < |parts[k].pins| && c == Contribute(parts[k], parts[k].pins[i])
      {
        if c in Contributions(init) {
          var k, i :| 0 <= k < |init| && 0 <= i < |init[k].pins| && c == Contribute(init[k], init[k].pins[i]);
          assert parts[k] == init[k];
        } else {
          var i :| 0 <= i < |p.pins| && PartContributions(p)[i] == c;
          assert parts[|parts| - 1] == p;
        }
      }
      forall k, i | 0 <= k < |parts| && 0 <= i < |parts[k].pins|
        ensures Contribute(parts[k], parts[k].pins[i]) in Contributions(parts)
      {
        if k < |init| {
          assert parts[k] == init[k];
          assert Contribute(init[k], init[k].pins[i]) in Contributions(init);
        } else {
          assert PartContributions(p)[i] == Contribute(parts[k], parts[k].pins[i]);
        }
      }
    }
  }

  /** The net names of the contributions, in visiting order. */
  function NetsOf(cs: seq<Contribution>): seq<string>
  {
    seq(|cs|, i requires 0 <= i < |cs| => cs[i].net)
  }

  /** The connection records contributed to net `n`, in visiting order. */
  function ConnectionsOn(cs: seq<Contribution>, n: string): seq<NetConnection>
  {
    if cs == [] then []
    else ConnectionsOn(cs[..|cs| - 1], n) + (if cs[|cs| - 1].net == n then [cs[|cs| - 1].conn] else [])
  }

  /** The pages of the contributions to net `n`. */
  function PagesOn(cs: seq<Contribution>, n: string): set<string>
  {
    if cs == [] then {}
    else PagesOn(cs[..|cs| - 1], n) + (if cs[|cs| - 1].net == n then {cs[|cs| - 1].page} else {})
  }

  lemma {:induction false} ConnectionsOnMembers(cs: seq<Contribution>, n: string)
    ensures forall x :: x in ConnectionsOn(cs, n) <==> exists c :: c in cs && c.net == n && c.conn == x
  {
    if cs != [] {
      var init := cs[..|cs| - 1];
      ConnectionsOnMembers(init, n);
      assert cs == init + [cs[|cs| - 1]];
    }
  }

  lemma {:induction false} PagesOnMembers(cs: seq<Contribution>, n: string)
    ensures forall p :: p in PagesOn(cs, n) <==> exists c :: c in cs && c.net == n && c.page == p
  {
    if cs != [] {
      var init := cs[..|cs| - 1];
      PagesOnMembers(init, n);
      assert cs == init + [cs[|cs| - 1]];
    }
  }

  /** A net no contribution names has no connections and no pages. */
  lemma {:induction false} NothingOnAbsentNet(cs: seq<Contribution>, n: string)
    requires n !in NetsOf(cs)
    ensures ConnectionsOn(cs, n) == [] && PagesOn(cs, n) == {}
  {
    if cs != [] {
      var init := cs[..|cs| - 1];
      assert NetsOf(cs) == NetsOf(init) + [cs[|cs| - 1].net];
      NothingOnAbsentNet(init, n);
    }
  }

  /* ---------------------------------------------------------------------
     The gathering loop
     --------------------------------------------------------------------- */

  /** A net before sealing: its connections in insertion order and its pages. */
  datatype RawNet = RawNet(pins: seq<NetConnection>, pages: set<string>)

  /** The JavaScript `Map` under construction: `order` is its key insertion order. */
  datatype RawIndex = RawIndex(order: seq<string>, nets: map<string, RawNet>)

  /** One turn of the inner loop: create the net when absent, push the connection, add the page. */
  function AddContribution(ix: RawIndex, c: Contribution): RawIndex
  {
    var present := c.net in ix.nets;
    var base := if present then ix.nets[c.net] else RawNet([], {});
    RawIndex(
      if present then ix.order else ix.order + [c.net],
      ix.nets[c.net := RawNet(base.pins + [c.conn], base.pages + {c.page})])
  }

  function Gather(cs: seq<Contribution>): RawIndex
  {
    if cs == [] then RawIndex([], map[])
    else AddContribution(Gather(cs[..|cs| - 1]), cs[|cs| - 1])
  }

  /** After the loop the keys are exactly the contributed net names. */
  lemma {:induction false} GatherKeys(cs: seq<Contribution>)
    ensures forall n :: n in Gather(cs).nets <==> n in NetsOf(cs)
  {
    if cs != [] {
      var init := cs[..|cs| - 1];
      GatherKeys(init);
      assert NetsOf(cs) == NetsOf(init) + [cs[|cs| - 1].net];
    }
  }

  /** The keys are in first-insertion order. */
  lemma {:induction false} GatherOrder(cs: seq<Contribution>)
    ensures Gather(cs).order == Dedup(NetsOf(cs))
  {
    if cs != [] {
      var init := cs[..|cs| - 1];
      GatherKeys(init);
      GatherOrder(init);
      assert NetsOf(cs)[..|cs| - 1] == NetsOf(init);
    }
  }

  /** Each net holds exactly its own contributions, in visiting order, and their pages. */
  lemma {:induction false} GatherNets(cs: seq<Contribution>)
    ensures forall n :: n in Gather(cs).nets ==> Gather(cs).nets[n] == RawNet(ConnectionsOn(cs, n), PagesOn(cs, n))
  {
    if cs != [] {
      var init := cs[..|cs| - 1];
      var x := cs[|cs| - 1];
      GatherKeys(init);
      GatherNets(init);
      if x.net !in Gather(init).nets {
        NothingOnAbsentNet(init, x.net);
      }
    }
  }

  lemma GatherSpec(cs: seq<Contribution>)
    ensures Gather(cs).order == Dedup(NetsOf(cs))
    ensures forall n :: n in Gather(cs).nets <==> n in NetsOf(cs)
    ensures forall n :: n in Gather(cs).nets ==> Gather(cs).nets[n] == RawNet(ConnectionsOn(cs, n), PagesOn(cs, n))
  {
    GatherKeys(cs);
    GatherOrder(cs);
    GatherNets(cs);
  }

  /* ---------------------------------------------------------------------
     Sealing: sort by reference, write the signature
     --------------------------------------------------------------------- */

  /** The sort comparator of a net: connections ordered by their reference only. */
  function ByRef(le: (string, string) -> bool): (NetConnection, NetConnection) -> bool
  {
    (a: NetConnection, b: NetConnection) => le(a.ref, b.ref)
  }

  lemma ByRefTotalPreorder(le: (string, string) -> bool)
    requires TotalPreorder(le)
    ensures TotalPreorder(ByRef(le))
  {
    var f := ByRef(le);
    forall a: NetConnection, b: NetConnection
      ensures f(a, b) || f(b, a)
    {
      assert f(a, b) == le(a.ref, b.ref) && f(b, a) == le(b.ref, a.ref);
    }
    forall a: NetConnection, b: NetConnection, c: NetConnection | f(a, b) && f(b, c)
      ensures f(a, c)
    {
      assert le(a.ref, b.ref) && le(b.ref, c.ref);
    }
  }

  /** The key of a connection: `ref.pinNum`. */
  function PinKey(c: NetConnection): string
  {
    c.ref + "." + c.pinNum
  }

  function PinKeys(pins: seq<NetConnection>): seq<string>
  {
    seq(|pins|, i requires 0 <= i < |pins| => PinKey(pins[i]))
  }

  /** The topology signature: the pin keys joined with `|`. */
  function Signature(pins: seq<NetConnection>): string
  {
    Join(PinKeys(pins), "|")
  }

  function Seal(name: string, raw: RawNet, le: (string, string) -> bool): NetObject
  {
    var sorted := Sort(raw.pins, ByRef(le));
    NetObject(name, sorted, raw.pages, Signature(sorted))
  }

  /** The finished index: key order and the nets by name. */
  datatype NetMap = NetMap(order: seq<string>, nets: map<string, NetObject>)

  /** `order` lists every key once, and every net is stored under its own name. */
  ghost predicate Valid(m: NetMap)
  {
    && Distinct(m.order)
    && (forall n :: n in m.nets <==> n in m.order)
    && (forall n :: n in m.nets ==> m.nets[n].name == n)
  }

  function Finish(ix: RawIndex, le: (string, string) -> bool): NetMap
  {
    NetMap(ix.order, map n | n in ix.nets :: Seal(n, ix.nets[n], le))
  }

  /** `buildNetMap(parts)`: one net per distinct pin net name, in order of first appearance. */
  function BuildNetMap(parts: seq<Part>, le: (string, string) -> bool): (m: NetMap)
    ensures Valid(m)
    ensures m.order == Dedup(NetsOf(Contributions(parts)))
    ensures forall n :: n in m.nets <==> n in PinNets(parts)
  {
    var cs := Contributions(parts);
    GatherSpec(cs);
    NetsOfParts(parts);
    Finish(Gather(cs), le)
  }

  /** A name occurs among the contributed nets exactly when some pin is bound to it. */
  lemma NetsOfParts(parts: seq<Part>)
    ensures forall n :: n in NetsOf(Contributions(parts)) <==> n in PinNets(parts)
  {
    var cs := Contributions(parts);
    ContributionsOfParts(parts);
    forall n | n in NetsOf(cs)
      ensures n in PinNets(parts)
    {
      var j :| 0 <= j < |cs| && NetsOf(cs)[j] == n;
      assert cs[j] in cs;
    }
    forall n | n in PinNets(parts)
      ensures n in NetsOf(cs)
    {
      var k, i :| 0 <= k < |parts| && 0 <= i < |parts[k].pins| && parts[k].pins[i].net == n;
      var c := Contribute(parts[k], parts[k].pins[i]);
      assert c in cs;
      var j :| 0 <= j < |cs| && cs[j] == c;
      assert NetsOf(cs)[j] == n;
    }
  }

  /** The sealed net `n` of `BuildNetMap(parts, le)` holds the raw contributions to `n`. */
  lemma BuildNetMapNet(parts: seq<Part>, le: (string, string) -> bool, n: string)
    requires n in PinNets(parts)
    ensures BuildNetMap(parts, le).nets[n] == Seal(n, RawNet(ConnectionsOn(Contributions(parts), n), PagesOn(Contributions(parts), n)), le)
  {
    GatherSpec(Contributions(parts));
  }

  /* ---------------------------------------------------------------------
     Properties of the finished index
     --------------------------------------------------------------------- */

  /** The raw contributions to `n` are the records of exactly the pins bound to `n`. */
  lemma RawConnectionsFromPins(parts: seq<Part>, n: string)
    ensures forall x :: x in ConnectionsOn(Contributions(parts), n) <==>
      exists k, i :: 0 <= k < |parts| && 0 <= i < |parts[k].pins| && parts[k].pins[i].net == n
                    && x == Connect(parts[k], parts[k].pins[i])
  {
    var cs := Contributions(parts);
    ConnectionsOnMembers(cs, n);
    ContributionsOfParts(parts);
    forall x | x in ConnectionsOn(cs, n)
      ensures exists k, i :: 0 <= k < |parts| && 0 <= i < |parts[k].pins| && parts[k].pins[i].net == n
                    && x == Connect(parts[k], parts[k].pins[i])
    {
      var c :| c in cs && c.net == n && c.conn == x;
      var k, i :| 0 <= k < |parts| && 0 <= i < |parts[k].pins| && c == Contribute(parts[k], parts[k].pins[i]);
    }
    forall k, i | 0 <= k < |parts| && 0 <= i < |parts[k].pins| && parts[k].pins[i].net == n
      ensures Connect(parts[k], parts[k].pins[i]) in ConnectionsOn(cs, n)
    {
      var c := Contribute(parts[k], parts[k].pins[i]);
      assert c in cs;
    }
  }

  /** Every connection of net `n` comes from a pin bound to `n`, and every such pin is there. */
  lemma NetConnectionsFromPins(parts: seq<Part>, le: (string, string) -> bool, n: string)
    requires n in PinNets(parts)
    ensures forall x :: x in BuildNetMap(parts, le).nets[n].pins <==>
      exists k, i :: 0 <= k < |parts| && 0 <= i < |parts[k].pins| && parts[k].pins[i].net == n
                    && x == Connect(parts[k], parts[k].pins[i])
  {
    var raw := ConnectionsOn(Contributions(parts), n);
    var pins := BuildNetMap(parts, le).nets[n].pins;
    BuildNetMapNet(parts, le, n);
    assert multiset(pins) == multiset(raw);
    assert forall x :: x in pins <==> x in raw by {
      forall x
        ensures x in pins <==> x in raw
      {
        assert x in pins <==> x in multiset(pins);
        assert x in raw <==> x in multiset(raw);
      }
    }
    RawConnectionsFromPins(parts, n);
  }

  /** The pages of net `n` are exactly the pages of the parts with a pin on `n`. */
  lemma NetPagesFromParts(parts: seq<Part>, le: (string, string) -> bool, n: string)
    requires n in PinNets(parts)
    ensures forall p :: p in BuildNetMap(parts, le).nets[n].pages <==>
      exists k, i :: 0 <= k < |parts| && 0 <= i < |parts[k].pins| && parts[k].pins[i].net == n
                    && p == parts[k].page
  {
    var cs := Contributions(parts);
    BuildNetMapNet(parts, le, n);
    PagesOnMembers(cs, n);
    ContributionsOfParts(parts);
    forall p | p in PagesOn(cs, n)
      ensures exists k, i :: 0 <= k < |parts| && 0 <= i < |parts[k].pins| && parts[k].pins[i].net == n
                    && p == parts[k].page
    {
      var c :| c in cs && c.net == n && c.page == p;
      var k, i :| 0 <= k < |parts| && 0 <= i < |parts[k].pins| && c == Contribute(parts[k], parts[k].pins[i]);
    }
    forall k, i | 0 <= k < |parts| && 0 <= i < |parts[k].pins| && parts[k].pins[i].net == n
      ensures parts[k].page in PagesOn(cs, n)
    {
      var c := Contribute(parts[k], parts[k].pins[i]);
      assert c in cs;
    }
  }

  /** Exactly one connection per pin: the connections of net `n` are, as a multiset, the
      records of the pins bound to `n`, and there are as many as there are such pins. */
  lemma NetConnectionsArePins(parts: seq<Part>, le: (string, string) -> bool, n: string)
    requires n in PinNets(parts)
    ensures multiset(BuildNetMap(parts, le).nets[n].pins) == multiset(ConnectionsOn(Contributions(parts), n))
    ensures |BuildNetMap(parts, le).nets[n].pins| == |ConnectionsOn(Contributions(parts), n)|
  {
    BuildNetMapNet(parts, le, n);
  }

  /** Connections are sorted by reference, and connections with equivalent references keep
      the order in which their pins were visited. */
  lemma NetPinsSortedStable(parts: seq<Part>, le: (string, string) -> bool, n: string)
    requires TotalPreorder(le)
    requires n in PinNets(parts)
    ensures SortedBy(ByRef(le), BuildNetMap(parts, le).nets[n].pins)
    ensures forall c :: ClassOf(BuildNetMap(parts, le).nets[n].pins, c, ByRef(le))
                     == ClassOf(ConnectionsOn(Contributions(parts), n), c, ByRef(le))
  {
    BuildNetMapNet(parts, le, n);
    ByRefTotalPreorder(le);
    var raw := ConnectionsOn(Contributions(parts), n);
    SortIsSorted(raw, ByRef(le));
    forall c
      ensures ClassOf(Sort(raw, ByRef(le)), c, ByRef(le)) == ClassOf(raw, c, ByRef(le))
    {
      SortIsStable(raw, c, ByRef(le));
    }
  }

  /** The signature does not depend on the sorting algorithm: any arrangement of the net's
      connections that is sorted by reference and stable has the stored signature. */
  lemma SignatureIsCanonical(parts: seq<Part>, le: (string, string) -> bool, n: string, t: seq<NetConnection>)
    requires TotalPreorder(le)
    requires n in PinNets(parts)
    requires SortedBy(ByRef(le), t)
    requires forall c :: ClassOf(t, c, ByRef(le)) == ClassOf(ConnectionsOn(Contributions(parts), n), c, ByRef(le))
    ensures BuildNetMap(parts, le).nets[n].pins == t
    ensures BuildNetMap(parts, le).nets[n].signature == Signature(t)
  {
    BuildNetMapNet(parts, le, n);
    ByRefTotalPreorder(le);
    SortIsUnique(ConnectionsOn(Contributions(parts), n), t, ByRef(le));
  }

  lemma TwoPinConnections(p: Part)
    requires |p.pins| == 2 && p.pins[0].net == p.pins[1].net
    ensures ConnectionsOn(Contributions([p]), p.pins[0].net) == [Connect(p, p.pins[0]), Connect(p, p.pins[1])]
  {
    assert [p][..0] == [];
    var cs := PartContributions(p);
    assert Contributions([p]) == cs;
    assert cs[0] == Contribute(p, p.pins[0]) && cs[1] == Contribute(p, p.pins[1]);
    assert cs[..1] == [cs[0]] && cs[..1][..0] == [];
    assert ConnectionsOn(cs[..1], p.pins[0].net) == [cs[0].conn];
  }

  lemma SortTwo(a: NetConnection, b: NetConnection, le: (string, string) -> bool)
    requires le(a.ref, b.ref)
    ensures Sort([a, b], ByRef(le)) == [a, b]
  {
    assert [a, b][..1] == [a] && [a][..0] == [];
    assert ByRef(le)(a, b);
  }

  lemma SignatureTwo(a: NetConnection, b: NetConnection)
    ensures Signature([a, b]) == PinKey(a) + "|" + PinKey(b)
  {
    var keys := [PinKey(a), PinKey(b)];
    assert PinKeys([a, b]) == keys;
    assert keys[1..] == [PinKey(b)];
    assert Join(keys, "|") == keys[0] + "|" + Join(keys[1..], "|");
  }

  /** A part with two pins on the same net: the net lists them in pin order, because they share a reference. */
  lemma TwoPinsOneNet(p: Part, le: (string, string) -> bool)
    requires TotalPreorder(le)
    requires |p.pins| == 2 && p.pins[0].net == p.pins[1].net
    ensures p.pins[0].net in BuildNetMap([p], le).nets
    ensures BuildNetMap([p], le).nets[p.pins[0].net].signature
         == PinKey(Connect(p, p.pins[0])) + "|" + PinKey(Connect(p, p.pins[1]))
  {
    var n := p.pins[0].net;
    var a, b := Connect(p, p.pins[0]), Connect(p, p.pins[1]);
    assert n in PinNets([p]) by {
      assert [p][0].pins[0].net == n;
    }
    BuildNetMapNet([p], le, n);
    TwoPinConnections(p);
    assert le(a.ref, b.ref);
    SortTwo(a, b, le);
    SignatureTwo(a, b);
  }

  /** A one-part snapshot: part U1 with the given pins. */
  function SamplePart(pins: seq<Pin>): Part
  {
    Part("U1", "", "", "S", "P1", "", false, Classification("Unknown", 0), pins, ["N"])
  }

  const PinOne := Pin("1", "A", "N")
  const PinTwo := Pin("2", "B", "N")

  lemma SampleSignature(le: (string, string) -> bool, first: Pin, second: Pin)
    requires TotalPreorder(le)
    requires first.net == "N" && second.net == "N"
    ensures "N" in BuildNetMap([SamplePart([first, second])], le).nets
    ensures BuildNetMap([SamplePart([first, second])], le).nets["N"].signature
         == "U1" + "." + first.num + "|" + ("U1" + "." + second.num)
  {
    TwoPinsOneNet(SamplePart([first, second]), le);
  }

  /** The signature records the order in which a part lists its pins: the same two pins
      on the same net, listed in the other order, give a different signature. */
  lemma SignatureDependsOnPinOrder(le: (string, string) -> bool)
    requires TotalPreorder(le)
    ensures "N" in BuildNetMap([SamplePart([PinOne, PinTwo])], le).nets
    ensures "N" in BuildNetMap([SamplePart([PinTwo, PinOne])], le).nets
    ensures BuildNetMap([SamplePart([PinOne, PinTwo])], le).nets["N"].signature == "U1.1|U1.2"
    ensures BuildNetMap([SamplePart([PinTwo, PinOne])], le).nets["N"].signature == "U1.2|U1.1"
  {
    SampleSignature(le, PinOne, PinTwo);
    SampleSignature(le, PinTwo, PinOne);
    LiteralKeys();
  }

  lemma LiteralKeys()
    ensures "U1" + "." + "1" + "|" + ("U1" + "." + "2") == "U1.1|U1.2"
    ensures "U1" + "." + "2" + "|" + ("U1" + "." + "1") == "U1.2|U1.1"
  {
  }

  /** When no reference or pin number contains `|`, the signature of a non-empty net
      has one `|` fewer than the net has connections. */
  lemma SignatureSeparators(pins: seq<NetConnection>)
    requires |pins| >= 1
    requires forall i :: 0 <= i < |pins| ==> Occurrences(pins[i].ref, '|') == 0 && Occurrences(pins[i].pinNum, '|') == 0
    ensures Occurrences(Signature(pins), '|') == |pins| - 1
  {
    var keys := PinKeys(pins);
    forall i | 0 <= i < |keys|
      ensures Occurrences(keys[i], '|') == 0
    {
      OccurrencesAppend(pins[i].ref, ".", '|');
      OccurrencesAppend(pins[i].ref + ".", pins[i].pinNum, '|');
      assert Occurrences(".", '|') == 0 + Occurrences(""[..], '|');
    }
    JoinSeparatorCount(keys, '|');
  }

  /** The number of connections over the nets listed in `order`. */
  function TotalConnections(order: seq<string>, nets: map<string, NetObject>): nat
    requires forall n :: n in order ==> n in nets
  {
    if order == [] then 0
    else TotalConnections(order[..|order| - 1], nets) + |nets[order[|order| - 1]].pins|
  }

  /** The number of contributions to the nets listed in `order`. */
  function ContributedTo(order: seq<string>, cs: seq<Contribution>): nat
  {
    if order == [] then 0
    else ContributedTo(order[..|order| - 1], cs) + |ConnectionsOn(cs, order[|order| - 1])|
  }

  /** One more contribution adds one to the count of the net it names, if listed. */
  lemma {:induction false} ContributedToSnoc(order: seq<string>, cs: seq<Contribution>, x: Contribution)
    requires Distinct(order)
    ensures ContributedTo(order, cs + [x]) == ContributedTo(order, cs) + (if x.net in order then 1 else 0)
  {
    if order != [] {
      var init := order[..|order| - 1];
      assert (cs + [x])[..|cs|] == cs;
      assert Distinct(init);
      ContributedToSnoc(init, cs, x);
      assert order == init + [order[|order| - 1]];
    }
  }

  /** Summed over all nets in insertion order, the contributions are all of them. */
  lemma {:induction false} ContributedToAll(cs: seq<Contribution>)
    ensures ContributedTo(Dedup(NetsOf(cs)), cs) == |cs|
  {
    if cs != [] {
      var init := cs[..|cs| - 1];
      var x := cs[|cs| - 1];
      assert cs == init + [x];
      assert NetsOf(cs)[..|cs| - 1] == NetsOf(init);
      var prev := Dedup(NetsOf(init));
      ContributedToAll(init);
      ContributedToSnoc(prev, init, x);
      if x.net !in prev {
        NothingOnAbsentNet(init, x.net);
        var order := prev + [x.net];
        assert order[..|order| - 1] == prev;
        assert ConnectionsOn(cs, x.net) == [x.conn];
      }
    }
  }

  lemma {:induction false} TotalConnectionsIsContributed(parts: seq<Part>, le: (string, string) -> bool, order: seq<string>)
    requires forall n :: n in order ==> n in BuildNetMap(parts, le).nets
    ensures TotalConnections(order, BuildNetMap(parts, le).nets) == ContributedTo(order, Contributions(parts))
  {
    if order != [] {
      var last := order[|order| - 1];
      TotalConnectionsIsContributed(parts, le, order[..|order| - 1]);
      NetConnectionsArePins(parts, le, last);
    }
  }

  lemma ConnectionTotal(parts: seq<Part>, le: (string, string) -> bool)
    ensures TotalConnections(BuildNetMap(parts, le).order, BuildNetMap(parts, le).nets) == TotalPins(parts)
  {
    var m := BuildNetMap(parts, le);
    var cs := Contributions(parts);
    assert forall n :: n in m.order ==> n in m.nets;
    TotalConnectionsIsContributed(parts, le, m.order);
    ContributedToAll(cs);
    assert m.order == Dedup(NetsOf(cs));
  }

  lemma NetTotal(parts: seq<Part>, le: (string, string) -> bool)
    ensures |BuildNetMap(parts, le).order| == |PinNets(parts)|
  {
    var m := BuildNetMap(parts, le);
    DistinctCardinality(m.order);
    var names := set n | n in m.order;
    assert names == PinNets(parts) by {
      forall n
        ensures n in names <==> n in PinNets(parts)
      {
        assert n in m.order <==> n in m.nets;
      }
    }
  }

  /** Every pin adds exactly one connection: the connections of all nets together are as
      many as the pins of all parts, and there is one net per distinct net name. */
  lemma ConnectionCount(parts: seq<Part>, le: (string, string) -> bool)
    ensures TotalConnections(BuildNetMap(parts, le).order, BuildNetMap(parts, le).nets) == TotalPins(parts)
    ensures |BuildNetMap(parts, le).order| == |PinNets(parts)|
  {
    ConnectionTotal(parts, le);
    NetTotal(parts, le);
  }
}

=== FILE: net_view.dfy ===
/** The pure parts of the net comparison view: the text filter over the
    active tab's list, the pin delta of a mismatched net, and the capped pin
    preview of a single net. */
module NetView {
  import opened Types
  import opened Options
  import opened Seqs
  import opened Strings
  import opened NetIndex

  /* ---------------------------------------------------------------------
     Tabs and rows
     --------------------------------------------------------------------- */

  datatype Tab = MismatchTab | AddedTab | DeletedTab | UnconnectedTab

  /** An item of the active list: a net, or a mismatch on the mismatch tab. */
  datatype Row = NetRow(net: NetObject) | MismatchRow(mismatch: NetMismatch)

  function NetRows(nets: seq<NetObject>): seq<Row>
  {
    seq(|nets|, i requires 0 <= i < |nets| => NetRow(nets[i]))
  }

  /** `results[activeTab]` */
  function TabRows(results: NetCompareResults, tab: Tab): seq<Row>
  {
    match tab
    case MismatchTab => seq(|results.mismatch|, i requires 0 <= i < |results.mismatch| => MismatchRow(results.mismatch[i]))
    case AddedTab => NetRows(results.added)
    case DeletedTab => NetRows(results.deleted)
    case UnconnectedTab => NetRows(results.unconnected)
  }

  /** The badge on a tab: the matching field of the result's counts. */
  function TabCount(results: NetCompareResults, tab: Tab): nat
  {
    match tab
    case MismatchTab => results.stats.mismatch
    case AddedTab => results.stats.added
    case DeletedTab => results.stats.deleted
    case UnconnectedTab => results.stats.unconnected
  }

  /* ---------------------------------------------------------------------
     The text filter
     --------------------------------------------------------------------- */

  /** `item.name || item.new?.name`. A net with an empty name has no `new`, so the
      expression yields `undefined` and the following `toLowerCase()` throws. */
  function RowName(row: Row): Option<string>
  {
    match row
    case NetRow(n) => if n.name != "" then Some(n.name) else None
    case MismatchRow(m) => Some(if m.name != "" then m.name else m.newNet.name)
  }

  /** The row's lower-cased name contains the lower-cased filter. */
  predicate Matches(row: Row, low: string)
  {
    RowName(row).Some? && Contains(Lower(RowName(row).value), low)
  }

  function MatchesFilter(low: string): Row -> bool
  {
    (row: Row) => Matches(row, low)
  }

  /** What the filter yields: the rows kept, or a `TypeError` thrown by the callback. */
  datatype Outcome = Rows(rows: seq<Row>) | TypeError

  /** `getFilteredList()` */
  function FilterRows(rows: seq<Row>, filter: string): (o: Outcome)
    ensures filter == "" ==> o == Rows(rows)
    ensures filter != "" ==> (o.TypeError? <==> exists r :: r in rows && RowName(r).None?)
    ensures filter != "" && o.Rows? ==> forall r :: r in o.rows <==> r in rows && Matches(r, Lower(filter))
    ensures o.Rows? ==> IsSubsequence(o.rows, rows)
  {
    if filter == "" then
      assert IsSubsequence(rows, rows) by {
        FilterAll(rows, (r: Row) => true);
        FilterIsSubsequence(rows, (r: Row) => true);
      }
      Rows(rows)
    else if exists r :: r in rows && RowName(r).None? then TypeError
    else
      var kept := Filter(rows, MatchesFilter(Lower(filter)));
      FilterIsSubsequence(rows, MatchesFilter(Lower(filter)));
      Rows(kept)
  }

  /** The filter ignores letter case. */
  lemma FilterIgnoresCase(rows: seq<Row>, filter: string)
    ensures FilterRows(rows, Upper(filter)) == FilterRows(rows, filter)
    ensures FilterRows(rows, Lower(filter)) == FilterRows(rows, filter)
  {
    LowerOfUpper(filter);
    assert Lower(Lower(filter)) == Lower(filter) by {
      LowerOfUpper(Lower(filter));
      LowerOfUpper(filter);
      assert Upper(Lower(filter)) == Upper(filter) by { UpperOfLower(filter); }
    }
  }

  /** Filtering the filtered list again with the same text changes nothing. */
  lemma FilterIdempotentOnRows(rows: seq<Row>, filter: string)
    requires FilterRows(rows, filter).Rows?
    ensures FilterRows(FilterRows(rows, filter).rows, filter) == FilterRows(rows, filter)
  {
    if filter != "" {
      FilterIdempotent(rows, MatchesFilter(Lower(filter)));
    }
  }

  /** A row of a mismatch never makes the filter throw; only a net named "" does. */
  lemma MismatchTabNeverThrows(results: NetCompareResults, filter: string)
    ensures FilterRows(TabRows(results, MismatchTab), filter).Rows?
  {
  }

  /** On a list of nets none of which is named "", a filter keeps exactly the nets whose
      lower-cased name contains the lower-cased filter. */
  lemma FilterOnNetTab(nets: seq<NetObject>, filter: string)
    requires filter != ""
    requires forall n :: n in nets ==> n.name != ""
    ensures FilterRows(NetRows(nets), filter).Rows?
    ensures forall n :: NetRow(n) in FilterRows(NetRows(nets), filter).rows <==>
      n in nets && Contains(Lower(n.name), Lower(filter))
  {
    var rows := NetRows(nets);
    forall r | r in rows
      ensures RowName(r).Some?
    {
      var i :| 0 <= i < |rows| && rows[i] == r;
      assert nets[i] in nets;
    }
    forall n
      ensures NetRow(n) in rows <==> n in nets
    {
      if n in nets {
        var i :| 0 <= i < |nets| && nets[i] == n;
        assert rows[i] == NetRow(n);
      }
    }
  }

  /* ---------------------------------------------------------------------
     The pin delta of a mismatched net
     --------------------------------------------------------------------- */

  /** `new Set(pins.map(p => `${p.ref}.${p.pinNum}`))` */
  function KeySet(pins: seq<NetConnection>): set<string>
  {
    set c | c in pins :: PinKey(c)
  }

  function KeyIn(keys: set<string>): NetConnection -> bool
  {
    (c: NetConnection) => PinKey(c) in keys
  }

  function KeyNotIn(keys: set<string>): NetConnection -> bool
  {
    (c: NetConnection) => PinKey(c) !in keys
  }

  datatype PinDelta = PinDelta(removed: seq<NetConnection>, added: seq<NetConnection>, common: seq<NetConnection>)

  /** The OUT, IN and common pin tags of a mismatch row. */
  function Delta(m: NetMismatch): (d: PinDelta)
    ensures forall c :: c in d.removed <==> c in m.oldNet.pins && PinKey(c) !in KeySet(m.newNet.pins)
    ensures forall c :: c in d.added <==> c in m.newNet.pins && PinKey(c) !in KeySet(m.oldNet.pins)
    ensures forall c :: c in d.common <==> c in m.newNet.pins && PinKey(c) in KeySet(m.oldNet.pins)
    ensures multiset(d.added) + multiset(d.common) == multiset(m.newNet.pins)
    ensures IsSubsequence(d.removed, m.oldNet.pins)
    ensures IsSubsequence(d.added, m.newNet.pins) && IsSubsequence(d.common, m.newNet.pins)
  {
    var oldKeys := KeySet(m.oldNet.pins);
    var newKeys := KeySet(m.newNet.pins);
    FilterSplit(m.newNet.pins, KeyNotIn(oldKeys), KeyIn(oldKeys));
    FilterIsSubsequence(m.oldNet.pins, KeyNotIn(newKeys));
    FilterIsSubsequence(m.newNet.pins, KeyNotIn(oldKeys));
    FilterIsSubsequence(m.newNet.pins, KeyIn(oldKeys));
    PinDelta(
      Filter(m.oldNet.pins, KeyNotIn(newKeys)),
      Filter(m.newNet.pins, KeyNotIn(oldKeys)),
      Filter(m.newNet.pins, KeyIn(oldKeys)))
  }

  /** The tags account for every pin: each new pin is IN or common, never both, and the
      OUT tags are the old pins with no new counterpart. */
  lemma DeltaCounts(m: NetMismatch)
    ensures |Delta(m).added| + |Delta(m).common| == |m.newNet.pins|
    ensures |Delta(m).removed| <= |m.oldNet.pins|
    ensures forall c :: c in Delta(m).added ==> c !in Delta(m).common
  {
    var d := Delta(m);
    assert |multiset(d.added) + multiset(d.common)| == |multiset(m.newNet.pins)|;
  }

  /** Identical pin lists produce no OUT or IN tag, and every pin is common. */
  lemma DeltaOfSamePins(m: NetMismatch)
    requires m.oldNet.pins == m.newNet.pins
    ensures Delta(m) == PinDelta([], [], m.newNet.pins)
  {
    var keys := KeySet(m.oldNet.pins);
    assert forall c :: c in m.newNet.pins ==> PinKey(c) in keys;
    FilterNone(m.oldNet.pins, KeyNotIn(keys));
    FilterNone(m.newNet.pins, KeyNotIn(keys));
    FilterAll(m.newNet.pins, KeyIn(keys));
  }

  /** Keys join the reference and the pin number with ".", so a reference that itself
      contains a dot can collide with another pin: U1.1 pin 2 and U1 pin 1.2 are shown
      as the same common pin, and their nets have the same signature. */
  lemma DottedReferencesCollide(a: NetConnection, b: NetConnection)
    requires a == NetConnection("U1.1", "2", "", "", "", "", "")
    requires b == NetConnection("U1", "1.2", "", "", "", "", "")
    ensures a != b
    ensures Delta(NetMismatch("N", NetObject("N", [a], {}, ""), NetObject("N", [b], {}, ""))) == PinDelta([], [], [b])
    ensures Signature([a]) == Signature([b])
  {
    assert PinKey(a) == PinKey(b) == "U1.1.2";
    var m := NetMismatch("N", NetObject("N", [a], {}, ""), NetObject("N", [b], {}, ""));
    assert KeySet([a]) == {"U1.1.2"} && KeySet([b]) == {"U1.1.2"};
    assert [a][1..] == [] && [b][1..] == [];
    assert PinKeys([a]) == ["U1.1.2"] && PinKeys([b]) == ["U1.1.2"];
  }

  /* ---------------------------------------------------------------------
     The pin preview of a net row
     --------------------------------------------------------------------- */

  /** At most this many pin tags are shown for one net. */
  const PreviewCap: nat := 15

  /** The shown tags and, past the cap, the count in the "+N more" label. */
  datatype Preview = Preview(shown: seq<NetConnection>, more: Option<nat>)

  /** `pins.slice(0, 15)` and `pins.length > 15 && "+" + (pins.length - 15) + " more"` */
  function PreviewOf(pins: seq<NetConnection>): (v: Preview)
    ensures |v.shown| <= PreviewCap
    ensures |v.shown| <= |pins| && v.shown == pins[..|v.shown|]
    ensures v.more.Some? <==> |pins| > PreviewCap
    ensures v.more.None? ==> v.shown == pins
    ensures v.more.Some? ==> |v.shown| == PreviewCap && |v.shown| + v.more.value == |pins|
  {
    if |pins| > PreviewCap then Preview(pins[..PreviewCap], Some(|pins| - PreviewCap))
    else Preview(pins, None)
  }
}

=== FILE: options.dfy ===
/** An optional value: a field that may be absent from the exported JSON, or
    a result that may not exist. */
module Options {

  datatype Option<+T> = None | Some(value: T)
}

=== FILE: parser.dfy ===
/** `parseOrCADJson`: from an OrCAD JSON export to the canonical part list.

    The export is untyped JSON; here it is the family of `Raw…` datatypes, in
    which a field that may be missing is an `Option`. Any JSON array or object
    is truthy, so a present list is selected even when it is empty; a string
    is truthy exactly when it is non-empty. */
module Parser {
  import opened Types
  import opened Options
  import opened Seqs
  import opened Strings
  import opened StableSort
  import opened Classifier

  /* ---------------------------------------------------------------------
     The export
     --------------------------------------------------------------------- */

  /** A pin: `Number`, `Name` and the optional `objNet["Net Name"]`. */
  datatype RawPin = RawPin(number: string, name: string, netName: Option<string>)

  /** A part: each property under both spellings the exporters use, and the optional pin list. */
  datatype RawPart = RawPart(
    partNumber: Option<string>,       // Part_Number
    partNumberUpper: Option<string>,  // PART_NUMBER
    value: Option<string>,            // Value
    valueUpper: Option<string>,       // VALUE
    footprint: Option<string>,        // "PCB Footprint"
    footprintUnderscore: Option<string>, // PCB_Footprint
    reference: Option<string>,        // Reference
    partReference: Option<string>,    // Part_Reference
    lstPin: Option<seq<RawPin>>)

  datatype RawPage = RawPage(name: string, lstPart: Option<seq<RawPart>>)

  datatype RawSchematic = RawSchematic(name: string, lstPage: Option<seq<RawPage>>)

  datatype RawDesign = RawDesign(name: string, lstSche: Option<seq<RawSchematic>>)

  /** The top level: a design object, or a bare schematic list, or a bare page list. */
  datatype RawJson = RawJson(
    objDsn: Option<RawDesign>,
    lstSche: Option<seq<RawSchematic>>,
    lstPage: Option<seq<RawPage>>,
    version: string)

  /** The string is present and non-empty, so JavaScript treats it as true. */
  predicate Truthy(o: Option<string>)
  {
    o.Some? && o.value != ""
  }

  /** `first || second || fallback` on optional strings: the result is one of the three
      candidates, it is empty only when the fallback is, and a non-empty first value wins. */
  function Either(first: Option<string>, second: Option<string>, fallback: string): (r: string)
    ensures r == fallback || (first.Some? && r == first.value) || (second.Some? && r == second.value)
    ensures r == "" ==> fallback == ""
    ensures Truthy(first) ==> r == first.value
  {
    if Truthy(first) then first.value
    else if Truthy(second) then second.value
    else fallback
  }

  /** A missing or empty first value hands the choice to the second: the result is what the
      second value alone would give. */
  lemma EitherFallsThrough(first: Option<string>, second: Option<string>, fallback: string)
    requires !Truthy(first)
    ensures Either(first, second, fallback) == Either(second, None, fallback)
  {
  }

  /** JavaScript's `||` treats the empty string as false: an empty value counts as missing,
      under either spelling. */
  lemma EitherEmptyIsMissing(first: Option<string>, second: Option<string>, fallback: string)
    ensures Either(Some(""), second, fallback) == Either(None, second, fallback)
    ensures Either(first, Some(""), fallback) == Either(first, None, fallback)
  {
  }

  /* ---------------------------------------------------------------------
     Pins
     --------------------------------------------------------------------- */

  /** `pin.objNet?.["Net Name"] || ""` */
  function NetName(rp: RawPin): string
  {
    if Truthy(rp.netName) then rp.netName.value else ""
  }

  /** The pin is bound to a real net: a non-empty name other than the no-connect marker. */
  predicate Connected(rp: RawPin)
  {
    NetName(rp) != "" && NetName(rp) != "NC"
  }

  function ToPin(rp: RawPin): Pin
  {
    Pin(rp.number, rp.name, NetName(rp))
  }

  function PinsOf(raws: seq<RawPin>): seq<Pin>
  {
    seq(|raws|, i requires 0 <= i < |raws| => ToPin(raws[i]))
  }

  /** No pin is bound to the empty name or the no-connect marker. */
  predicate AllConnected(pins: seq<Pin>)
  {
    forall p :: p in pins ==> p.net != "" && p.net != "NC"
  }

  /** The pin loop: connected pins are pushed in order, the others dropped. */
  function KeptPins(raws: seq<RawPin>): (pins: seq<Pin>)
    ensures |pins| <= |raws|
    ensures AllConnected(pins)
  {
    if raws == [] then []
    else (if Connected(raws[0]) then [ToPin(raws[0])] else []) + KeptPins(raws[1..])
  }

  /** A pin is kept exactly when it is connected. */
  lemma {:induction false} KeptPinsIff(raws: seq<RawPin>)
    ensures forall p :: p in KeptPins(raws) <==> exists rp :: rp in raws && Connected(rp) && p == ToPin(rp)
  {
    if raws != [] {
      KeptPinsIff(raws[1..]);
      assert raws == [raws[0]] + raws[1..];
    }
  }

  /** Kept pins keep their order in the export. */
  lemma {:induction false} KeptPinsInOrder(raws: seq<RawPin>)
    ensures IsSubsequence(KeptPins(raws), PinsOf(raws))
  {
    if raws != [] {
      KeptPinsInOrder(raws[1..]);
      assert PinsOf(raws)[1..] == PinsOf(raws[1..]);
      if !Connected(raws[0]) {
        assert KeptPins(raws) == KeptPins(raws[1..]);
        SubsequenceOfTail(KeptPins(raws[1..]), PinsOf(raws));
      } else {
        assert KeptPins(raws)[1..] == KeptPins(raws[1..]);
      }
    }
  }

  function IsConnected(): RawPin -> bool
  {
    (rp: RawPin) => Connected(rp)
  }

  /** The pin loop keeps every connected pin, repeats included: it is the connected pins of the
      export, in order, each turned into a pin. */
  lemma {:induction false} KeptPinsAreFiltered(raws: seq<RawPin>)
    ensures KeptPins(raws) == PinsOf(Filter(raws, IsConnected()))
    ensures |KeptPins(raws)| == |Filter(raws, IsConnected())|
  {
    if raws != [] {
      var rest := Filter(raws[1..], IsConnected());
      var head := if Connected(raws[0]) then [raws[0]] else [];
      assert Filter(raws, IsConnected()) == head + rest;
      KeptPinsAreFiltered(raws[1..]);
      PinsOfAppend(head, rest);
    }
  }

  lemma PinsOfAppend(a: seq<RawPin>, b: seq<RawPin>)
    ensures PinsOf(a + b) == PinsOf(a) + PinsOf(b)
  {
  }

  /* ---------------------------------------------------------------------
     Net list of a part
     --------------------------------------------------------------------- */

  /** `Array.prototype.sort()` without a comparator: code-unit order. */
  const CodeUnitLe: (string, string) -> bool := (a: string, b: string) => LexLe(a, b)

  lemma CodeUnitLeTotalPreorder()
    ensures TotalPreorder(CodeUnitLe)
  {
    forall a: string, b: string
      ensures CodeUnitLe(a, b) || CodeUnitLe(b, a)
    {
      LexLeTotal(a, b);
    }
    forall a: string, b: string, c: string | CodeUnitLe(a, b) && CodeUnitLe(b, c)
      ensures CodeUnitLe(a, c)
    {
      LexLeTransitive(a, b, c);
    }
  }

  function NetsOfPins(pins: seq<Pin>): seq<string>
  {
    seq(|pins|, i requires 0 <= i < |pins| => pins[i].net)
  }

  lemma NetsOfPinsMembers(pins: seq<Pin>)
    ensures forall n :: n in NetsOfPins(pins) <==> exists p :: p in pins && p.net == n
  {
    forall n | n in NetsOfPins(pins)
      ensures exists p :: p in pins && p.net == n
    {
      var i :| 0 <= i < |pins| && NetsOfPins(pins)[i] == n;
      assert pins[i] in pins;
    }
    forall n, p | p in pins && p.net == n
      ensures n in NetsOfPins(pins)
    {
      var i :| 0 <= i < |pins| && pins[i] == p;
      assert NetsOfPins(pins)[i] == n;
    }
  }

  /** `nets` names each net of `pins` once, in code-unit order. */
  ghost predicate NetListOf(nets: seq<string>, pins: seq<Pin>)
  {
    && Distinct(nets)
    && SortedBy(CodeUnitLe, nets)
    && (forall n :: n in nets <==> exists p :: p in pins && p.net == n)
  }

  /** `Array.from(connectedNets).sort()`: the part's net names, each once, in code-unit order. */
  function PartNets(pins: seq<Pin>): (nets: seq<string>)
    ensures NetListOf(nets, pins)
  {
    var names := Dedup(NetsOfPins(pins));
    CodeUnitLeTotalPreorder();
    SortIsSorted(names, CodeUnitLe);
    SortDistinct(names, CodeUnitLe);
    SortMembers(names, CodeUnitLe);
    NetsOfPinsMembers(pins);
    Sort(names, CodeUnitLe)
  }

  /** Two duplicate-free sequences sorted in code-unit order with the same elements are equal. */
  lemma {:induction false} StrictlySortedUnique(a: seq<string>, b: seq<string>)
    requires Distinct(a) && Distinct(b)
    requires SortedBy(CodeUnitLe, a) && SortedBy(CodeUnitLe, b)
    requires forall x :: x in a <==> x in b
    ensures a == b
    decreases |a|
  {
    NoMembersMeansEmpty(a);
    NoMembersMeansEmpty(b);
    if a != [] && b != [] {
      var x, y := a[0], b[0];
      assert y in a && x in b;
      var i :| 0 <= i < |a| && a[i] == y;
      var j :| 0 <= j < |b| && b[j] == x;
      LexLeTotal(x, x);
      assert LexLe(x, y) by {
        assert CodeUnitLe(a[0], a[i]) == LexLe(x, y);
        if i > 0 { assert CodeUnitLe(a[0], a[i]); }
      }
      assert LexLe(y, x) by {
        assert CodeUnitLe(b[0], b[j]) == LexLe(y, x);
        if j > 0 { assert CodeUnitLe(b[0], b[j]); }
      }
      LexLeAntisymmetric(x, y);
      var ta, tb := a[1..], b[1..];
      assert a == [x] + ta && b == [x] + tb;
      forall z | z in ta
        ensures z in tb
      {
        var p :| 0 <= p < |ta| && ta[p] == z;
        assert a[p + 1] == z && z != a[0];
        assert z in b;
        var q :| 0 <= q < |b| && b[q] == z;
        assert q != 0 && tb[q - 1] == z;
      }
      forall z | z in tb
        ensures z in ta
      {
        var p :| 0 <= p < |tb| && tb[p] == z;
        assert b[p + 1] == z && z != b[0];
        assert z in a;
        var q :| 0 <= q < |a| && a[q] == z;
        assert q != 0 && ta[q - 1] == z;
      }
      assert Distinct(ta) by {
        forall p, q | 0 <= p < q < |ta|
          ensures ta[p] != ta[q]
        {
          assert ta[p] == a[p + 1] && ta[q] == a[q + 1];
        }
      }
      assert Distinct(tb) by {
        forall p, q | 0 <= p < q < |tb|
          ensures tb[p] != tb[q]
        {
          assert tb[p] == b[p + 1] && tb[q] == b[q + 1];
        }
      }
      assert SortedBy(CodeUnitLe, ta) by {
        forall p, q | 0 <= p < q < |ta|
          ensures CodeUnitLe(ta[p], ta[q])
        {
          assert ta[p] == a[p + 1] && ta[q] == a[q + 1];
        }
      }
      assert SortedBy(CodeUnitLe, tb) by {
        forall p, q | 0 <= p < q < |tb|
          ensures CodeUnitLe(tb[p], tb[q])
        {
          assert tb[p] == b[p + 1] && tb[q] == b[q + 1];
        }
      }
      StrictlySortedUnique(ta, tb);
    }
  }

  /** The net list is the only duplicate-free, code-unit-sorted list of the part's net names. */
  lemma PartNetsUnique(pins: seq<Pin>, t: seq<string>)
    requires Distinct(t) && SortedBy(CodeUnitLe, t)
    requires forall n :: n in t <==> exists p :: p in pins && p.net == n
    ensures t == PartNets(pins)
  {
    StrictlySortedUnique(t, PartNets(pins));
  }

  /* ---------------------------------------------------------------------
     Parts
     --------------------------------------------------------------------- */

  /** The do-not-install flag: upper-cased value contains "NL" or "DNI", or upper-cased
      footprint contains "DNI". */
  predicate IsNL(value: string, footprint: string)
  {
    Contains(Upper(value), "NL") || Contains(Upper(value), "DNI") || Contains(Upper(footprint), "DNI")
  }

  /** The flag ignores letter case. */
  lemma IsNLIgnoresCase(value: string, footprint: string)
    ensures IsNL(Lower(value), Lower(footprint)) == IsNL(value, footprint)
    ensures IsNL(Upper(value), Upper(footprint)) == IsNL(value, footprint)
  {
    UpperOfLower(value);
    UpperOfLower(footprint);
    UpperOfUpper(value);
    UpperOfUpper(footprint);
  }

  /** The test is a substring test, not a word test: a value such as "online" carries "NL". */
  lemma IsNLMatchesInsideWords()
    ensures IsNL("online", "")
  {
    assert Upper("online") == "ONLINE";
    assert StartsWith("ONLINE"[1..], "NL");
    assert Contains("ONLINE"[1..], "NL");
  }

  /** The properties every parsed part has. */
  ghost predicate Normalised(p: Part)
  {
    && p.ref != ""
    && Trimmed(p.pn)
    && p.classification == ClassifyPart(p.pn)
    && p.isNL == IsNL(p.value, p.footprint)
    && AllConnected(p.pins)
    && NetListOf(p.nets, p.pins)
  }

  /** One turn of the part loop. */
  function NormalisePart(scheName: string, pageName: string, raw: RawPart): (p: Part)
    ensures Normalised(p)
    ensures p.schematic == scheName && p.page == pageName
  {
    var pn := Trim(Either(raw.partNumber, raw.partNumberUpper, "N/A"));
    var value := Either(raw.value, raw.valueUpper, "");
    var footprint := Either(raw.footprint, raw.footprintUnderscore, "");
    var pins: seq<Pin> := if raw.lstPin.Some? then KeptPins(raw.lstPin.value) else [];
    assert AllConnected(pins);
    var nets := PartNets(pins);
    var p := Part(
      Either(raw.reference, raw.partReference, "Unk"),
      pn, value, scheName, pageName, footprint,
      IsNL(value, footprint),
      ClassifyPart(pn),
      pins,
      nets);
    assert p.nets == nets && p.pins == pins;
    p
  }

  /** The fields of a parsed part, read off the export. */
  lemma NormalisePartFields(scheName: string, pageName: string, raw: RawPart)
    ensures var p := NormalisePart(scheName, pageName, raw);
      && p.ref == Either(raw.reference, raw.partReference, "Unk")
      && p.pn == Trim(Either(raw.partNumber, raw.partNumberUpper, "N/A"))
      && p.value == Either(raw.value, raw.valueUpper, "")
      && p.footprint == Either(raw.footprint, raw.footprintUnderscore, "")
      && p.pins == (if raw.lstPin.Some? then KeptPins(raw.lstPin.value) else [])
  {
  }

  lemma TrimLiteral()
    ensures Trim("N/A") == "N/A"
  {
    assert !IsSpace('N') && !IsSpace('A');
    assert LeadingSpaces("N/A") == 0;
    assert TrailingSpaces("N/A") == 0;
    assert "N/A"[0..3] == "N/A";
  }

  /** The defaults: reference "Unk", part number "N/A", value and footprint "". */
  lemma Defaults(scheName: string, pageName: string, raw: RawPart)
    ensures !Truthy(raw.reference) && !Truthy(raw.partReference) ==> NormalisePart(scheName, pageName, raw).ref == "Unk"
    ensures !Truthy(raw.partNumber) && !Truthy(raw.partNumberUpper) ==> NormalisePart(scheName, pageName, raw).pn == "N/A"
    ensures !Truthy(raw.value) && !Truthy(raw.valueUpper) ==> NormalisePart(scheName, pageName, raw).value == ""
    ensures !Truthy(raw.footprint) && !Truthy(raw.footprintUnderscore) ==> NormalisePart(scheName, pageName, raw).footprint == ""
    ensures raw.lstPin.None? ==> NormalisePart(scheName, pageName, raw).pins == []
  {
    NormalisePartFields(scheName, pageName, raw);
    TrimLiteral();
  }

  /** The mixed-case spelling wins over the upper-case one whenever it is non-empty, for each
      property on its own and whatever the other spelling and the other properties hold. */
  lemma SpellingPrecedence(scheName: string, pageName: string, raw: RawPart)
    ensures Truthy(raw.reference) ==> NormalisePart(scheName, pageName, raw).ref == raw.reference.value
    ensures Truthy(raw.partNumber) ==> NormalisePart(scheName, pageName, raw).pn == Trim(raw.partNumber.value)
    ensures Truthy(raw.value) ==> NormalisePart(scheName, pageName, raw).value == raw.value.value
    ensures Truthy(raw.footprint) ==> NormalisePart(scheName, pageName, raw).footprint == raw.footprint.value
  {
    NormalisePartFields(scheName, pageName, raw);
  }

  /** When the mixed-case spelling is missing or empty, the upper-case one is read. */
  lemma SecondSpelling(scheName: string, pageName: string, raw: RawPart)
    ensures !Truthy(raw.reference) && Truthy(raw.partReference) ==>
      NormalisePart(scheName, pageName, raw).ref == raw.partReference.value
    ensures !Truthy(raw.partNumber) && Truthy(raw.partNumberUpper) ==>
      NormalisePart(scheName, pageName, raw).pn == Trim(raw.partNumberUpper.value)
    ensures !Truthy(raw.value) && Truthy(raw.valueUpper) ==>
      NormalisePart(scheName, pageName, raw).value == raw.valueUpper.value
    ensures !Truthy(raw.footprint) && Truthy(raw.footprintUnderscore) ==>
      NormalisePart(scheName, pageName, raw).footprint == raw.footprintUnderscore.value
  {
    NormalisePartFields(scheName, pageName, raw);
  }

  /** The pins of a parsed part are exactly the connected pins of its export, each occurrence
      kept, in export order. */
  lemma NormalisedPins(scheName: string, pageName: string, raw: RawPart)
    requires raw.lstPin.Some?
    ensures forall p :: p in NormalisePart(scheName, pageName, raw).pins <==>
      exists rp :: rp in raw.lstPin.value && Connected(rp) && p == ToPin(rp)
    ensures NormalisePart(scheName, pageName, raw).pins == PinsOf(Filter(raw.lstPin.value, IsConnected()))
  {
    KeptPinsIff(raw.lstPin.value);
    KeptPinsAreFiltered(raw.lstPin.value);
  }

  /* ---------------------------------------------------------------------
     The walk over schematics, pages and parts
     --------------------------------------------------------------------- */

  /** The parts of one page, in export order. */
  function PageParts(scheName: string, page: RawPage): seq<Part>
  {
    match page.lstPart
    case None => []
    case Some(raws) => seq(|raws|, i requires 0 <= i < |raws| => NormalisePart(scheName, page.name, raws[i]))
  }

  /** The parts of the pages of one schematic, page by page. */
  function PagesParts(scheName: string, pages: seq<RawPage>): seq<Part>
  {
    Flatten(pages, (pg: RawPage) => PageParts(scheName, pg))
  }

  function SchematicParts(sche: RawSchematic): seq<Part>
  {
    match sche.lstPage
    case None => []
    case Some(pages) => PagesParts(sche.name, pages)
  }

  /** The exported part `raw` sits on page `pg` of schematic `s`, both of which have their lists. */
  predicate ExportedOn(s: RawSchematic, pg: RawPage, raw: RawPart)
  {
    s.lstPage.Some? && pg in s.lstPage.value && pg.lstPart.Some? && raw in pg.lstPart.value
  }

  lemma PagePartsMembers(scheName: string, pg: RawPage)
    ensures forall p :: p in PageParts(scheName, pg) <==>
      pg.lstPart.Some? && exists raw :: raw in pg.lstPart.value && p == NormalisePart(scheName, pg.name, raw)
  {
    if pg.lstPart.Some? {
      var raws := pg.lstPart.value;
      forall raw | raw in raws
        ensures NormalisePart(scheName, pg.name, raw) in PageParts(scheName, pg)
      {
        var i :| 0 <= i < |raws| && raws[i] == raw;
        assert PageParts(scheName, pg)[i] == NormalisePart(scheName, pg.name, raw);
      }
    }
  }

  lemma PagesPartsMembers(scheName: string, pages: seq<RawPage>)
    ensures forall p :: p in PagesParts(scheName, pages) <==>
      exists pg, raw :: pg in pages && pg.lstPart.Some? && raw in pg.lstPart.value
                     && p == NormalisePart(scheName, pg.name, raw)
  {
    var f := (pg: RawPage) => PageParts(scheName, pg);
    FlattenMembers(pages, f);
    forall pg | pg in pages
      ensures forall p :: p in f(pg) <==>
        pg.lstPart.Some? && exists raw :: raw in pg.lstPart.value && p == NormalisePart(scheName, pg.name, raw)
    {
      PagePartsMembers(scheName, pg);
    }
  }

  lemma SchematicPartsMembers(s: RawSchematic)
    ensures forall p :: p in SchematicParts(s) <==>
      exists pg, raw :: ExportedOn(s, pg, raw) && p == NormalisePart(s.name, pg.name, raw)
  {
    if s.lstPage.Some? {
      PagesPartsMembers(s.name, s.lstPage.value);
    }
  }

  /** The walk over the schematics, in export order. */
  function SchematicsParts(list: seq<RawSchematic>): seq<Part>
  {
    Flatten(list, SchematicParts)
  }

  /** Provenance of the walk: a gathered part is exactly the normalisation of some exported
      part, tagged with the names of the schematic and the page it sits on. */
  lemma SchematicsPartsMembers(list: seq<RawSchematic>)
    ensures forall p :: p in SchematicsParts(list) <==>
      exists s, pg, raw :: s in list && ExportedOn(s, pg, raw) && p == NormalisePart(s.name, pg.name, raw)
  {
    FlattenMembers(list, SchematicParts);
    forall s | s in list
      ensures forall p :: p in SchematicParts(s) <==>
        exists pg, raw :: ExportedOn(s, pg, raw) && p == NormalisePart(s.name, pg.name, raw)
    {
      SchematicPartsMembers(s);
    }
  }

  /** The parts of all schematics, in export order; each is a normalised part. */
  function AllParts(list: seq<RawSchematic>): (parts: seq<Part>)
    ensures forall p :: p in parts ==> Normalised(p)
  {
    SchematicsPartsMembers(list);
    SchematicsParts(list)
  }

  /** Provenance: a parsed part is exactly the normalisation of some exported part, tagged with
      the names of the schematic and the page it sits on. */
  lemma AllPartsMembers(list: seq<RawSchematic>)
    ensures forall p :: p in AllParts(list) <==>
      exists s, pg, raw :: s in list && ExportedOn(s, pg, raw) && p == NormalisePart(s.name, pg.name, raw)
  {
    SchematicsPartsMembers(list);
  }

  /** Export order: the parts of a list of schematics are the parts of its first schematics
      followed by the parts of the rest. */
  lemma AllPartsAppend(a: seq<RawSchematic>, b: seq<RawSchematic>)
    ensures AllParts(a + b) == AllParts(a) + AllParts(b)
  {
    FlattenAppend(a, b, SchematicParts);
  }

  /** Within a schematic, the parts of its first pages come before those of the rest. */
  lemma PagesPartsAppend(scheName: string, a: seq<RawPage>, b: seq<RawPage>)
    ensures PagesParts(scheName, a + b) == PagesParts(scheName, a) + PagesParts(scheName, b)
  {
    FlattenAppend(a, b, (pg: RawPage) => PageParts(scheName, pg));
  }

  /** One schematic with one page lists that page's exported parts, one parsed part each, in
      export order, tagged with the schematic's and the page's names. */
  lemma AllPartsSinglePage(scheName: string, pageName: string, raws: seq<RawPart>)
    ensures var parts := AllParts([RawSchematic(scheName, Some([RawPage(pageName, Some(raws))]))]);
      && |parts| == |raws|
      && forall i :: 0 <= i < |raws| ==> parts[i] == NormalisePart(scheName, pageName, raws[i])
  {
    var page := RawPage(pageName, Some(raws));
    var sche := RawSchematic(scheName, Some([page]));
    FlattenOne(sche, SchematicParts);
    FlattenOne(page, (pg: RawPage) => PageParts(scheName, pg));
  }

  /** The number of parts is the number of exported parts on pages that have a part list,
      in schematics that have a page list. */
  function ExportedParts(list: seq<RawSchematic>): nat
  {
    if list == [] then 0
    else ExportedParts(list[..|list| - 1]) + SchematicCount(list[|list| - 1])
  }

  function SchematicCount(sche: RawSchematic): nat
  {
    match sche.lstPage
    case None => 0
    case Some(pages) => PageCount(pages)
  }

  function PageCount(pages: seq<RawPage>): nat
  {
    if pages == [] then 0
    else PageCount(pages[..|pages| - 1]) + (match pages[|pages| - 1].lstPart case None => 0 case Some(raws) => |raws|)
  }

  lemma {:induction false} PagesPartsCount(scheName: string, pages: seq<RawPage>)
    ensures |PagesParts(scheName, pages)| == PageCount(pages)
  {
    if pages != [] {
      PagesPartsCount(scheName, pages[..|pages| - 1]);
    }
  }

  lemma {:induction false} AllPartsCount(list: seq<RawSchematic>)
    ensures |AllParts(list)| == ExportedParts(list)
  {
    if list != [] {
      AllPartsCount(list[..|list| - 1]);
      var sche := list[|list| - 1];
      if sche.lstPage.Some? {
        PagesPartsCount(sche.name, sche.lstPage.value);
      }
    }
  }

  /** A schematic without a page list adds no part, and neither does a page without a part list. */
  lemma MissingListsAddNothing(list: seq<RawSchematic>, name: string, pageName: string, pages: seq<RawPage>)
    ensures AllParts(list + [RawSchematic(name, None)]) == AllParts(list)
    ensures AllParts(list + [RawSchematic(name, Some(pages + [RawPage(pageName, None)]))])
         == AllParts(list + [RawSchematic(name, Some(pages))])
  {
    assert (list + [RawSchematic(name, None)])[..|list|] == list;
    var full := pages + [RawPage(pageName, None)];
    assert full[..|pages|] == pages;
    assert PagesParts(name, full) == PagesParts(name, pages);
    assert (list + [RawSchematic(name, Some(full))])[..|list|] == list;
    assert (list + [RawSchematic(name, Some(pages))])[..|list|] == list;
  }

  /* ---------------------------------------------------------------------
     Selection of the schematic list and the result
     --------------------------------------------------------------------- */

  datatype Selection = Selection(list: seq<RawSchematic>, meta: Meta)

  /** Which list the export is read from, and the metadata that goes with it. */
  function Select(json: RawJson, encoding: string): (s: Selection)
    ensures s.meta.encoding == encoding
  {
    if json.objDsn.Some? && json.objDsn.value.lstSche.Some? then
      Selection(json.objDsn.value.lstSche.value, Meta(json.objDsn.value.name, json.version, encoding))
    else if json.lstSche.Some? then
      Selection(json.lstSche.value, Meta("Standard Export", json.version, encoding))
    else if json.lstPage.Some? then
      Selection([RawSchematic("Single", json.lstPage)], Meta("Single Page", json.version, encoding))
    else
      Selection([], Meta("", "", encoding))
  }

  /** A design's schematic list wins over a bare schematic list, which wins over a bare page list:
      the highest-ranked list present is the one read, and whatever lower-ranked lists the export
      also carries are ignored. */
  lemma SelectionPrecedence(json: RawJson, encoding: string, sche: Option<seq<RawSchematic>>, pages: Option<seq<RawPage>>)
    ensures json.objDsn.Some? && json.objDsn.value.lstSche.Some? ==>
      Select(json.(lstSche := sche, lstPage := pages), encoding) == Select(json, encoding)
    ensures json.lstSche.Some? ==> Select(json.(lstPage := pages), encoding) == Select(json, encoding)
    ensures json.objDsn.Some? && json.objDsn.value.lstSche.Some? ==>
      Select(json, encoding).list == json.objDsn.value.lstSche.value
    ensures !(json.objDsn.Some? && json.objDsn.value.lstSche.Some?) && json.lstSche.Some? ==>
      Select(json, encoding).list == json.lstSche.value
    ensures !(json.objDsn.Some? && json.objDsn.value.lstSche.Some?) && json.lstSche.None? && json.lstPage.Some? ==>
      Select(json, encoding).list == [RawSchematic("Single", json.lstPage)]
  {
  }

  /** A design's schematic list is read with the design's name and the export's version. */
  lemma DesignList(json: RawJson, encoding: string)
    requires json.objDsn.Some? && json.objDsn.value.lstSche.Some?
    ensures AllParts(Select(json, encoding).list) == AllParts(json.objDsn.value.lstSche.value)
    ensures Select(json, encoding).meta == Meta(json.objDsn.value.name, json.version, encoding)
  {
  }

  /** Without a design list, a bare schematic list is read under the name "Standard Export". */
  lemma StandardExport(json: RawJson, encoding: string)
    requires !(json.objDsn.Some? && json.objDsn.value.lstSche.Some?) && json.lstSche.Some?
    ensures AllParts(Select(json, encoding).list) == AllParts(json.lstSche.value)
    ensures Select(json, encoding).meta == Meta("Standard Export", json.version, encoding)
  {
  }

  /** A bare page list is read as one schematic named "Single". */
  lemma BarePageList(json: RawJson, encoding: string)
    requires !(json.objDsn.Some? && json.objDsn.value.lstSche.Some?) && json.lstSche.None?
    requires json.lstPage.Some?
    ensures AllParts(Select(json, encoding).list) == PagesParts("Single", json.lstPage.value)
    ensures Select(json, encoding).meta.name == "Single Page"
  {
    FlattenOne(RawSchematic("Single", json.lstPage), SchematicParts);
  }

  /** An export with none of the three lists yields no parts and empty metadata. */
  lemma NothingSelected(json: RawJson, encoding: string)
    requires !(json.objDsn.Some? && json.objDsn.value.lstSche.Some?)
    requires json.lstSche.None? && json.lstPage.None?
    ensures AllParts(Select(json, encoding).list) == []
    ensures Select(json, encoding).meta == Meta("", "", encoding)
  {
  }

  datatype Snapshot = Snapshot(parts: seq<Part>, meta: Meta, stats: Stats)

  /** The net names the pins of the parts are bound to (the global net set). */
  function GlobalNets(parts: seq<Part>): set<string>
  {
    set k, i | 0 <= k < |parts| && 0 <= i < |parts[k].pins| :: parts[k].pins[i].net
  }

  /** `parseOrCADJson(json, encoding)`; the exporter's pin count is passed in already parsed. */
  function ParseOrCad(json: RawJson, encoding: string, pinCount: int): (snap: Snapshot)
    ensures forall p :: p in snap.parts ==> Normalised(p)
    ensures snap.stats.parts == |snap.parts|
    ensures snap.stats.nets == |GlobalNets(snap.parts)|
    ensures snap.stats.pins == pinCount
    ensures snap.meta == Select(json, encoding).meta
  {
    var sel := Select(json, encoding);
    var parts := AllParts(sel.list);
    Snapshot(parts, sel.meta, Stats(|parts|, pinCount, |GlobalNets(parts)|))
  }

  /** No net of a parsed snapshot is empty or the no-connect marker. */
  lemma GlobalNetsClean(json: RawJson, encoding: string, pinCount: int)
    ensures var parts := ParseOrCad(json, encoding, pinCount).parts;
      "" !in GlobalNets(parts) && "NC" !in GlobalNets(parts)
  {
    var parts := ParseOrCad(json, encoding, pinCount).parts;
    forall k, i | 0 <= k < |parts| && 0 <= i < |parts[k].pins|
      ensures parts[k].pins[i].net != "" && parts[k].pins[i].net != "NC"
    {
      assert parts[k] in parts;
      assert parts[k].pins[i] in parts[k].pins;
    }
  }

  /** The part count is the number of exported parts reachable through the selected list. */
  lemma PartCount(json: RawJson, encoding: string, pinCount: int)
    ensures ParseOrCad(json, encoding, pinCount).stats.parts == ExportedParts(Select(json, encoding).list)
  {
    AllPartsCount(Select(json, encoding).list);
  }
}

=== FILE: seqs.dfy ===
/** Generic sequence helpers shared by every stage of the comparison engine:
    the order-preserving filter behind JavaScript's `Array.prototype.filter`,
    duplicate-freedom, and first-occurrence de-duplication (the key order of a
    JavaScript `Set` or `Map` built by repeated insertion). */
module Seqs {

  /** Keeps the elements satisfying `f`, in their original order. */
  function Filter<T(!new)>(s: seq<T>, f: T -> bool): (r: seq<T>)
    ensures |r| <= |s|
    ensures forall x :: x in r <==> x in s && f(x)
    ensures multiset(r) <= multiset(s)
  {
    if s == [] then []
    else
      assert s == [s[0]] + s[1..];
      (if f(s[0]) then [s[0]] else []) + Filter(s[1..], f)
  }

  lemma {:induction false} FilterAppend<T(!new)>(a: seq<T>, b: seq<T>, f: T -> bool)
    ensures Filter(a + b, f) == Filter(a, f) + Filter(b, f)
  {
    if a == [] {
      assert a + b == b;
    } else {
      assert (a + b)[1..] == a[1..] + b;
      FilterAppend(a[1..], b, f);
    }
  }

  /** Filtering a sequence extended by one element extends the result by at most that element. */
  lemma FilterSnoc<T(!new)>(s: seq<T>, x: T, f: T -> bool)
    ensures Filter(s + [x], f) == Filter(s, f) + (if f(x) then [x] else [])
  {
    FilterAppend(s, [x], f);
    assert [x][1..] == [];
    assert Filter([x][1..], f) == [];
    assert Filter([x], f) == (if f(x) then [x] else []) + Filter([x][1..], f);
  }

  lemma {:induction false} FilterNone<T(!new)>(s: seq<T>, f: T -> bool)
    requires forall x :: x in s ==> !f(x)
    ensures Filter(s, f) == []
  {
    if s != [] {
      FilterNone(s[1..], f);
    }
  }

  /** `a` can be obtained from `b` by deleting elements: `a` keeps `b`'s order. */
  predicate IsSubsequence<T(==)>(a: seq<T>, b: seq<T>)
    decreases |b|
  {
    a == [] || (b != [] && (if a[0] == b[0] then IsSubsequence(a[1..], b[1..]) else IsSubsequence(a, b[1..])))
  }

  lemma {:induction false} FilterAll<T(!new)>(s: seq<T>, f: T -> bool)
    requires forall x :: x in s ==> f(x)
    ensures Filter(s, f) == s
  {
    if s != [] {
      FilterAll(s[1..], f);
    }
  }

  /** Filtering twice by the same test keeps what filtering once kept. */
  lemma FilterIdempotent<T(!new)>(s: seq<T>, f: T -> bool)
    ensures Filter(Filter(s, f), f) == Filter(s, f)
  {
    FilterAll(Filter(s, f), f);
  }

  /** A test and its negation split a sequence: each element lands on exactly one side. */
  lemma {:induction false} FilterSplit<T(!new)>(s: seq<T>, f: T -> bool, g: T -> bool)
    requires forall x :: g(x) == !f(x)
    ensures multiset(Filter(s, f)) + multiset(Filter(s, g)) == multiset(s)
    ensures |Filter(s, f)| + |Filter(s, g)| == |s|
  {
    if s != [] {
      FilterSplit(s[1..], f, g);
      assert s == [s[0]] + s[1..];
    }
  }

  lemma {:induction false} FilterIsSubsequence<T(!new)>(s: seq<T>, f: T -> bool)
    ensures IsSubsequence(Filter(s, f), s)
  {
    if s != [] {
      FilterIsSubsequence(s[1..], f);
      if f(s[0]) {
        assert Filter(s, f)[1..] == Filter(s[1..], f);
      } else {
        assert Filter(s, f) == Filter(s[1..], f);
        SubsequenceOfTail(Filter(s[1..], f), s);
      }
    }
  }

  lemma {:induction false} SubsequenceOfTail<T>(a: seq<T>, b: seq<T>)
    requires b != []
    requires IsSubsequence(a, b[1..])
    ensures IsSubsequence(a, b)
    decreases |b|, |a|
  {
    if a != [] && a[0] == b[0] {
      // a[1..] is a subsequence of b[1..] because a is
      SubsequenceDropHead(a, b[1..]);
    }
  }

  lemma {:induction false} SubsequenceDropHead<T>(a: seq<T>, b: seq<T>)
    requires a != []
    requires IsSubsequence(a, b)
    ensures IsSubsequence(a[1..], b)
    decreases |b|, |a|
  {
    if a[0] == b[0] {
      if a[1..] != [] {
        SubsequenceOfTail(a[1..], b);
      }
    } else {
      SubsequenceDropHead(a, b[1..]);
      if a[1..] != [] {
        SubsequenceOfTail(a[1..], b);
      }
    }
  }

  lemma NoMembersMeansEmpty<T>(s: seq<T>)
    ensures (forall x :: x !in s) ==> s == []
  {
    if s != [] {
      assert s[0] in s;
    }
  }

  /** No element occurs twice. */
  predicate Distinct<T(==)>(s: seq<T>)
  {
    forall i, j :: 0 <= i < j < |s| ==> s[i] != s[j]
  }

  /** The elements of `s` in order of first occurrence, each once. */
  function Dedup<T(==, !new)>(s: seq<T>): (r: seq<T>)
    ensures Distinct(r)
    ensures forall x :: x in r <==> x in s
    ensures |r| <= |s|
  {
    if s == [] then []
    else
      var prev := Dedup(s[..|s| - 1]);
      var x := s[|s| - 1];
      assert forall y :: y in s <==> y in s[..|s| - 1] || y == x by {
        assert s == s[..|s| - 1] + [x];
      }
      if x in prev then prev else prev + [x]
  }

  /** A duplicate-free sequence has as many elements as the set of its elements. */
  lemma {:induction false} DistinctCardinality<T>(s: seq<T>)
    requires Distinct(s)
    ensures |set x | x in s| == |s|
  {
    if s != [] {
      var init := s[..|s| - 1];
      var x := s[|s| - 1];
      assert Distinct(init);
      DistinctCardinality(init);
      assert s == init + [x];
      assert forall i :: 0 <= i < |init| ==> init[i] == s[i];
      assert x !in init;
      assert (set y | y in s) == (set y | y in init) + {x};
    }
  }

  /** Filtering keeps a duplicate-free sequence duplicate-free. */
  lemma {:induction false} FilterDistinct<T(!new)>(s: seq<T>, f: T -> bool)
    requires Distinct(s)
    ensures Distinct(Filter(s, f))
  {
    if s != [] {
      assert Distinct(s[1..]);
      FilterDistinct(s[1..], f);
      assert s[0] !in s[1..];
    }
  }

  /** The concatenation of `f(x)` over the elements `x` of `s`, in order (`flatMap`). */
  function Flatten<T, U>(s: seq<T>, f: T -> seq<U>): seq<U>
  {
    if s == [] then [] else Flatten(s[..|s| - 1], f) + f(s[|s| - 1])
  }

  lemma FlattenOne<T, U>(x: T, f: T -> seq<U>)
    ensures Flatten([x], f) == f(x)
  {
    assert [x][..0] == [];
  }

  /** Flattening a concatenation flattens each part in turn. */
  lemma {:induction false} FlattenAppend<T, U>(a: seq<T>, b: seq<T>, f: T -> seq<U>)
    ensures Flatten(a + b, f) == Flatten(a, f) + Flatten(b, f)
  {
    if b == [] {
      assert a + b == a;
    } else {
      var init, last := b[..|b| - 1], b[|b| - 1];
      var ab := a + b;
      assert ab[..|ab| - 1] == a + init && ab[|ab| - 1] == last;
      FlattenAppend(a, init, f);
    }
  }

  /** An element of the flattening comes from the image of some element, and every element of
      every image is there. */
  lemma {:induction false} FlattenMembers<T, U>(s: seq<T>, f: T -> seq<U>)
    ensures forall y :: y in Flatten(s, f) <==> exists x :: x in s && y in f(x)
  {
    if s != [] {
      var init, last := s[..|s| - 1], s[|s| - 1];
      assert s == init + [last];
      assert Flatten(s, f) == Flatten(init, f) + f(last);
      FlattenMembers(init, f);
      forall x, y | x in s && y in f(x)
        ensures y in Flatten(s, f)
      {
        if x != last {
          assert x in init;
          FlattenedFrom(init, f, x, y);
        }
      }
    }
  }

  lemma FlattenedFrom<T, U>(s: seq<T>, f: T -> seq<U>, x: T, y: U)
    requires forall y :: y in Flatten(s, f) <==> exists x :: x in s && y in f(x)
    requires x in s && y in f(x)
    ensures y in Flatten(s, f)
  {
  }
}

=== FILE: stable_sort.dfy ===
/** A stable sort under an arbitrary total preorder, the contract of
    `Array.prototype.sort` with a comparator (stable since ECMAScript 2019).

    The comparator is a parameter: `le(a, b)` means "a may come before b".
    Elements that are equivalent under `le` (each may come before the other)
    keep their input order. `SortIsUnique` shows that sortedness plus
    stability determine the output, so `Sort` (an insertion sort) stands for
    any stable sorting algorithm, including the engine's. */
module StableSort {
  import opened Seqs

  ghost predicate TotalPreorder<T(!new)>(le: (T, T) -> bool)
  {
    && (forall x, y :: le(x, y) || le(y, x))
    && (forall x, y, z :: le(x, y) && le(y, z) ==> le(x, z))
  }

  ghost predicate SortedBy<T>(le: (T, T) -> bool, s: seq<T>)
  {
    forall i, j :: 0 <= i < j < |s| ==> le(s[i], s[j])
  }

  /** `x` and `k` may each come before the other. */
  predicate Equivalent<T>(x: T, k: T, le: (T, T) -> bool)
  {
    le(x, k) && le(k, x)
  }

  /** The elements of `s` equivalent to `k`, in their order in `s`. */
  function ClassOf<T>(s: seq<T>, k: T, le: (T, T) -> bool): seq<T>
  {
    if s == [] then []
    else (if Equivalent(s[0], k, le) then [s[0]] else []) + ClassOf(s[1..], k, le)
  }

  /** Inserts `x` after every element that may come before it. */
  function Insert<T>(x: T, s: seq<T>, le: (T, T) -> bool): (r: seq<T>)
    ensures multiset(r) == multiset(s) + multiset{x}
    ensures |r| == |s| + 1
  {
    if s == [] then [x]
    else if le(s[0], x) then
      assert s == [s[0]] + s[1..];
      [s[0]] + Insert(x, s[1..], le)
    else [x] + s
  }

  /** Insertion sort, taking the input elements from left to right. */
  function Sort<T>(s: seq<T>, le: (T, T) -> bool): (r: seq<T>)
    ensures multiset(r) == multiset(s)
    ensures |r| == |s|
  {
    if s == [] then []
    else
      assert s == s[..|s| - 1] + [s[|s| - 1]];
      Insert(s[|s| - 1], Sort(s[..|s| - 1], le), le)
  }

  lemma {:induction false} InsertKeepsSorted<T(!new)>(x: T, s: seq<T>, le: (T, T) -> bool)
    requires TotalPreorder(le)
    requires SortedBy(le, s)
    ensures SortedBy(le, Insert(x, s, le))
  {
    if s != [] && le(s[0], x) {
      var rest := Insert(x, s[1..], le);
      InsertKeepsSorted(x, s[1..], le);
      forall y | y in rest
        ensures le(s[0], y)
      {
        assert y in multiset(rest);
        if y != x {
          assert y in s[1..];
        }
      }
      var r := [s[0]] + rest;
      forall i, j | 0 <= i < j < |r|
        ensures le(r[i], r[j])
      {
        if i == 0 {
          assert r[j] in rest;
        } else {
          assert r[i] == rest[i - 1] && r[j] == rest[j - 1];
        }
      }
    }
  }

  lemma ClassOfCons<T>(x: T, s: seq<T>, k: T, le: (T, T) -> bool)
    ensures ClassOf([x] + s, k, le) == (if Equivalent(x, k, le) then [x] else []) + ClassOf(s, k, le)
  {
    assert ([x] + s)[1..] == s;
  }

  lemma {:induction false} ClassOfSnoc<T>(s: seq<T>, x: T, k: T, le: (T, T) -> bool)
    ensures ClassOf(s + [x], k, le) == ClassOf(s, k, le) + (if Equivalent(x, k, le) then [x] else [])
  {
    if s == [] {
      ClassOfCons(x, [], k, le);
      assert [] + [x] == [x];
    } else {
      assert s + [x] == [s[0]] + (s[1..] + [x]);
      assert s == [s[0]] + s[1..];
      ClassOfCons(s[0], s[1..] + [x], k, le);
      ClassOfCons(s[0], s[1..], k, le);
      ClassOfSnoc(s[1..], x, k, le);
    }
  }

  lemma {:induction false} ClassOfMembers<T>(s: seq<T>, k: T, le: (T, T) -> bool)
    ensures forall y :: y in ClassOf(s, k, le) ==> y in s && Equivalent(y, k, le)
  {
    if s != [] {
      ClassOfMembers(s[1..], k, le);
    }
  }

  lemma {:induction false} ClassOfNone<T>(s: seq<T>, k: T, le: (T, T) -> bool)
    requires forall y :: y in s ==> !Equivalent(y, k, le)
    ensures ClassOf(s, k, le) == []
  {
    if s != [] {
      ClassOfNone(s[1..], k, le);
    }
  }

  /** When `x` comes strictly before the head of a sorted `s` and is equivalent to `k`,
      nothing in `s` is equivalent to `k`. */
  lemma ClassEmptyAfter<T(!new)>(x: T, s: seq<T>, k: T, le: (T, T) -> bool)
    requires TotalPreorder(le)
    requires SortedBy(le, s)
    requires s != [] && !le(s[0], x)
    requires Equivalent(x, k, le)
    ensures ClassOf(s, k, le) == []
  {
    forall y | y in s
      ensures !Equivalent(y, k, le)
    {
      var j :| 0 <= j < |s| && s[j] == y;
      assert le(s[0], y) by {
        if j > 0 { assert le(s[0], s[j]); }
      }
    }
    ClassOfNone(s, k, le);
  }

  /** Inserting `x` adds it at the end of its equivalence class and leaves every other class alone. */
  lemma {:induction false} InsertIsStable<T(!new)>(x: T, s: seq<T>, k: T, le: (T, T) -> bool)
    requires TotalPreorder(le)
    requires SortedBy(le, s)
    ensures ClassOf(Insert(x, s, le), k, le) == ClassOf(s, k, le) + (if Equivalent(x, k, le) then [x] else [])
  {
    if s == [] {
      ClassOfCons(x, [], k, le);
    } else if le(s[0], x) {
      assert [s[0]] + s[1..] == s;
      ClassOfCons(s[0], s[1..], k, le);
      ClassOfCons(s[0], Insert(x, s[1..], le), k, le);
      InsertIsStable(x, s[1..], k, le);
    } else {
      ClassOfCons(x, s, k, le);
      if Equivalent(x, k, le) {
        ClassEmptyAfter(x, s, k, le);
      }
    }
  }

  lemma {:induction false} SortIsSorted<T(!new)>(s: seq<T>, le: (T, T) -> bool)
    requires TotalPreorder(le)
    ensures SortedBy(le, Sort(s, le))
  {
    if s != [] {
      SortIsSorted(s[..|s| - 1], le);
      InsertKeepsSorted(s[|s| - 1], Sort(s[..|s| - 1], le), le);
    }
  }

  /** Every equivalence class keeps its input order. */
  lemma {:induction false} SortIsStable<T(!new)>(s: seq<T>, k: T, le: (T, T) -> bool)
    requires TotalPreorder(le)
    ensures ClassOf(Sort(s, le), k, le) == ClassOf(s, k, le)
  {
    if s != [] {
      var init := s[..|s| - 1];
      var x := s[|s| - 1];
      assert s == init + [x];
      ClassOfSnoc(init, x, k, le);
      SortIsStable(init, k, le);
      SortIsSorted(init, le);
      InsertIsStable(x, Sort(init, le), k, le);
    }
  }

  /** The first element of a non-empty sequence belongs to its own class. */
  lemma HeadInOwnClass<T(!new)>(s: seq<T>, le: (T, T) -> bool)
    ensures TotalPreorder(le) && s != [] ==> s[0] in ClassOf(s, s[0], le)
  {
    if s != [] {
      ClassOfCons(s[0], s[1..], s[0], le);
      assert [s[0]] + s[1..] == s;
    }
  }

  /** Two sorted sequences with the same equivalence classes, each in the same order, are equal. */
  lemma {:induction false} SortedWithSameClassesAreEqual<T(!new)>(a: seq<T>, b: seq<T>, le: (T, T) -> bool)
    requires TotalPreorder(le)
    requires SortedBy(le, a) && SortedBy(le, b)
    requires forall k :: ClassOf(a, k, le) == ClassOf(b, k, le)
    ensures a == b
    decreases |a|
  {
    HeadInOwnClass(a, le);
    HeadInOwnClass(b, le);
    if a != [] && b != [] {
      var x, y := a[0], b[0];
      ClassOfMembers(b, x, le);
      ClassOfMembers(a, y, le);
      assert x in b by {
        assert x in ClassOf(b, x, le);
      }
      assert y in a by {
        assert y in ClassOf(a, y, le);
      }
      assert le(y, x) by {
        var j :| 0 <= j < |b| && b[j] == x;
        if j > 0 { assert le(b[0], b[j]); }
      }
      assert le(x, y) by {
        var j :| 0 <= j < |a| && a[j] == y;
        if j > 0 { assert le(a[0], a[j]); }
      }
      assert a == [x] + a[1..] && b == [y] + b[1..];
      ClassOfCons(x, a[1..], x, le);
      ClassOfCons(y, b[1..], x, le);
      assert ClassOf(a, x, le)[0] == x;
      assert ClassOf(b, x, le)[0] == y;
      assert x == y;
      forall k
        ensures ClassOf(a[1..], k, le) == ClassOf(b[1..], k, le)
      {
        ClassOfCons(x, a[1..], k, le);
        ClassOfCons(x, b[1..], k, le);
        var head := if Equivalent(x, k, le) then [x] else [];
        assert ClassOf(a, k, le) == ClassOf(b, k, le);
        assert ClassOf(a[1..], k, le) == (head + ClassOf(a[1..], k, le))[|head|..];
        assert ClassOf(b[1..], k, le) == (head + ClassOf(b[1..], k, le))[|head|..];
      }
      SortedWithSameClassesAreEqual(a[1..], b[1..], le);
    }
  }

  /** Sortedness and stability determine the result: any arrangement of `s`
      that is sorted and keeps every class in input order is `Sort(s, le)`. */
  lemma SortIsUnique<T(!new)>(s: seq<T>, t: seq<T>, le: (T, T) -> bool)
    requires TotalPreorder(le)
    requires SortedBy(le, t)
    requires forall k :: ClassOf(t, k, le) == ClassOf(s, k, le)
    ensures t == Sort(s, le)
  {
    SortIsSorted(s, le);
    forall k
      ensures ClassOf(t, k, le) == ClassOf(Sort(s, le), k, le)
    {
      SortIsStable(s, k, le);
    }
    SortedWithSameClassesAreEqual(t, Sort(s, le), le);
  }

  /** Sorting neither creates nor removes elements, so it keeps a duplicate-free sequence duplicate-free. */
  lemma {:induction false} InsertDistinct<T>(x: T, s: seq<T>, le: (T, T) -> bool)
    requires Distinct(s) && x !in s
    ensures Distinct(Insert(x, s, le))
  {
    if s != [] && le(s[0], x) {
      var rest := Insert(x, s[1..], le);
      assert Distinct(s[1..]);
      assert x !in s[1..];
      InsertDistinct(x, s[1..], le);
      assert s[0] !in s[1..];
      assert s[0] !in multiset(rest);
      var r := [s[0]] + rest;
      forall i, j | 0 <= i < j < |r|
        ensures r[i] != r[j]
      {
        if i == 0 {
          assert r[j] in rest;
        } else {
          assert r[i] == rest[i - 1] && r[j] == rest[j - 1];
        }
      }
    }
  }

  lemma {:induction false} SortDistinct<T>(s: seq<T>, le: (T, T) -> bool)
    requires Distinct(s)
    ensures Distinct(Sort(s, le))
  {
    if s != [] {
      var init := s[..|s| - 1];
      var x := s[|s| - 1];
      assert Distinct(init);
      SortDistinct(init, le);
      assert x !in init;
      assert x !in multiset(Sort(init, le));
      InsertDistinct(x, Sort(init, le), le);
    }
  }

  lemma SortMembers<T>(s: seq<T>, le: (T, T) -> bool)
    ensures forall x :: x in Sort(s, le) <==> x in s
  {
    forall x
      ensures x in Sort(s, le) <==> x in s
    {
      assert x in Sort(s, le) <==> x in multiset(Sort(s, le));
      assert x in s <==> x in multiset(s);
    }
  }
}

=== FILE: strings.dfy ===
/** The string primitives the engine relies on, stated for Dafny strings
    (sequences of Unicode scalar values): JavaScript's default string order,
    `startsWith`, `substring(0, n)`, `includes`, ASCII case mapping,
    `trim` and `join`. */
module Strings {

  /* ---------------------------------------------------------------------
     Code-unit lexicographic order: the order `Array.prototype.sort()` uses
     on strings when no comparator is given.
     --------------------------------------------------------------------- */

  predicate LexLe(a: string, b: string)
  {
    a == [] || (b != [] && (a[0] < b[0] || (a[0] == b[0] && LexLe(a[1..], b[1..]))))
  }

  lemma {:induction false} LexLeTotal(a: string, b: string)
    ensures LexLe(a, b) || LexLe(b, a)
  {
    if a != [] && b != [] && a[0] == b[0] {
      LexLeTotal(a[1..], b[1..]);
    }
  }

  lemma {:induction false} LexLeAntisymmetric(a: string, b: string)
    requires LexLe(a, b) && LexLe(b, a)
    ensures a == b
  {
    if a != [] {
      LexLeAntisymmetric(a[1..], b[1..]);
      assert a == [a[0]] + a[1..] && b == [b[0]] + b[1..];
    }
  }

  lemma {:induction false} LexLeTransitive(a: string, b: string, c: string)
    requires LexLe(a, b) && LexLe(b, c)
    ensures LexLe(a, c)
  {
    if a != [] && a[0] == b[0] && b[0] == c[0] {
      LexLeTransitive(a[1..], b[1..], c[1..]);
    }
  }

  /* ---------------------------------------------------------------------
     Prefixes and substrings
     --------------------------------------------------------------------- */

  /** `s.startsWith(p)` */
  predicate StartsWith(s: string, p: string)
  {
    |p| <= |s| && s[..|p|] == p
  }

  /** `s.substring(0, n)` for n >= 0: the whole string when it is shorter than n. */
  function Prefix(s: string, n: nat): (r: string)
    ensures |r| == if |s| < n then |s| else n
    ensures StartsWith(s, r)
  {
    if |s| < n then s else s[..n]
  }

  /** Comparing `substring(0, |p|)` with `p` is the same test as `startsWith(p)`. */
  lemma PrefixEqualsIffStartsWith(s: string, p: string)
    ensures Prefix(s, |p|) == p <==> StartsWith(s, p)
  {
  }

  lemma StartsWithTransitive(s: string, p: string, q: string)
    requires StartsWith(p, q)
    ensures StartsWith(s, p) ==> StartsWith(s, q)
  {
    if StartsWith(s, p) {
      assert s[..|q|] == s[..|p|][..|q|];
    }
  }

  /** A string that starts with `p` does not start with a `q` that differs from `p` at position `i`. */
  lemma DiffersAt(s: string, p: string, q: string, i: nat)
    requires StartsWith(s, p)
    requires i < |p| && i < |q| && p[i] != q[i]
    ensures !StartsWith(s, q)
  {
    assert s[i] == s[..|p|][i] == p[i];
    if |q| <= |s| {
      assert s[..|q|][i] != q[i];
    }
  }

  /** `s.includes(t)`, scanning start positions from the left. */
  predicate Contains(s: string, t: string)
    decreases |s|
  {
    StartsWith(s, t) || (s != [] && Contains(s[1..], t))
  }

  /** `Contains` finds exactly the occurrences of `t` as a contiguous block of `s`. */
  lemma {:induction false} ContainsIffOccurs(s: string, t: string)
    ensures Contains(s, t) <==> exists i :: 0 <= i <= |s| && StartsWith(s[i..], t)
    decreases |s|
  {
    assert s[0..] == s;
    if s != [] {
      ContainsIffOccurs(s[1..], t);
      if exists i :: 0 <= i <= |s| && StartsWith(s[i..], t) {
        var i :| 0 <= i <= |s| && StartsWith(s[i..], t);
        if i > 0 {
          assert s[1..][i - 1..] == s[i..];
        }
      }
      if Contains(s[1..], t) {
        var i :| 0 <= i <= |s[1..]| && StartsWith(s[1..][i..], t);
        assert s[1..][i..] == s[i + 1..];
      }
    } else {
      if exists i :: 0 <= i <= |s| && StartsWith(s[i..], t) {
        var i :| 0 <= i <= |s| && StartsWith(s[i..], t);
        assert s[i..] == s;
      }
    }
  }

  /* ---------------------------------------------------------------------
     ASCII case mapping (`toUpperCase` / `toLowerCase` restricted to A-Z)
     --------------------------------------------------------------------- */

  function UpperChar(c: char): char
  {
    if 'a' <= c <= 'z' then (c as int - 32) as char else c
  }

  function LowerChar(c: char): char
  {
    if 'A' <= c <= 'Z' then (c as int + 32) as char else c
  }

  function Upper(s: string): (r: string)
    ensures |r| == |s|
    ensures forall i :: 0 <= i < |s| ==> r[i] == UpperChar(s[i])
  {
    seq(|s|, i requires 0 <= i < |s| => UpperChar(s[i]))
  }

  function Lower(s: string): (r: string)
    ensures |r| == |s|
    ensures forall i :: 0 <= i < |s| ==> r[i] == LowerChar(s[i])
  {
    seq(|s|, i requires 0 <= i < |s| => LowerChar(s[i]))
  }

  /** Upper-casing forgets any earlier case mapping. */
  lemma UpperOfLower(s: string)
    ensures Upper(Lower(s)) == Upper(s)
  {
    assert forall i :: 0 <= i < |s| ==> UpperChar(LowerChar(s[i])) == UpperChar(s[i]);
  }

  lemma UpperOfUpper(s: string)
    ensures Upper(Upper(s)) == Upper(s)
  {
    assert forall i :: 0 <= i < |s| ==> UpperChar(UpperChar(s[i])) == UpperChar(s[i]);
  }

  lemma LowerOfUpper(s: string)
    ensures Lower(Upper(s)) == Lower(s)
  {
    assert forall i :: 0 <= i < |s| ==> LowerChar(UpperChar(s[i])) == LowerChar(s[i]);
  }

  /* ---------------------------------------------------------------------
     `String.prototype.trim`: the ECMAScript WhiteSpace and LineTerminator
     code points (TAB, VT, FF, SP, NBSP, ZWNBSP, the Zs category, LF, CR,
     LS, PS).
     --------------------------------------------------------------------- */

  predicate IsSpace(c: char)
  {
    var n := c as int;
    n == 0x09 || n == 0x0A || n == 0x0B || n == 0x0C || n == 0x0D || n == 0x20
    || n == 0xA0 || n == 0x1680 || (0x2000 <= n <= 0x200A) || n == 0x2028 || n == 0x2029
    || n == 0x202F || n == 0x205F || n == 0x3000 || n == 0xFEFF
  }

  predicate AllSpace(s: string)
  {
    forall i :: 0 <= i < |s| ==> IsSpace(s[i])
  }

  /** The number of white-space characters `s` starts with. */
  function LeadingSpaces(s: string): (n: nat)
    ensures n <= |s|
    ensures forall k :: 0 <= k < n ==> IsSpace(s[k])
    ensures n == |s| || !IsSpace(s[n])
  {
    if s != [] && IsSpace(s[0]) then
      var n := LeadingSpaces(s[1..]);
      assert forall k :: 0 < k < n + 1 ==> s[k] == s[1..][k - 1];
      n + 1
    else 0
  }

  /** The number of white-space characters `s` ends with. */
  function TrailingSpaces(s: string): (n: nat)
    ensures n <= |s|
    ensures forall k :: |s| - n <= k < |s| ==> IsSpace(s[k])
    ensures n == |s| || !IsSpace(s[|s| - n - 1])
  {
    if s != [] && IsSpace(s[|s| - 1]) then
      var n := TrailingSpaces(s[..|s| - 1]);
      assert forall k :: |s| - 1 - n <= k < |s| - 1 ==> s[k] == s[..|s| - 1][k];
      n + 1
    else 0
  }

  /** Neither starts nor ends with white space. */
  predicate Trimmed(s: string)
  {
    s == [] || (!IsSpace(s[0]) && !IsSpace(s[|s| - 1]))
  }

  /** `s.trim()`: white space is dropped from both ends. */
  function Trim(s: string): (r: string)
    ensures Trimmed(r)
  {
    var lead := LeadingSpaces(s);
    var end := |s| - TrailingSpaces(s);
    if lead < end then s[lead..end] else []
  }

  /** `s` is the trimmed string framed by white space on both sides. */
  lemma TrimFramed(s: string)
    ensures var r := Trim(s);
      exists i :: 0 <= i <= |s| - |r| && r == s[i..i + |r|] && AllSpace(s[..i]) && AllSpace(s[i + |r|..])
  {
    var lead := LeadingSpaces(s);
    var end := |s| - TrailingSpaces(s);
    if lead < end {
      FramedAt(s, Trim(s), lead);
    } else {
      assert AllSpace(s) by {
        forall k | 0 <= k < |s|
          ensures IsSpace(s[k])
        {
          if k >= lead { assert k >= end; }
        }
      }
      assert s[0..0] == [] && s[..0] == [] && s[0..] == s;
      FramedAt(s, Trim(s), 0);
    }
  }

  lemma FramedAt(s: string, r: string, i: int)
    requires 0 <= i <= |s| - |r| && r == s[i..i + |r|] && AllSpace(s[..i]) && AllSpace(s[i + |r|..])
    ensures exists j :: 0 <= j <= |s| - |r| && r == s[j..j + |r|] && AllSpace(s[..j]) && AllSpace(s[j + |r|..])
  {
  }

  /* ---------------------------------------------------------------------
     `Array.prototype.join`
     --------------------------------------------------------------------- */

  function Join(xs: seq<string>, sep: string): string
  {
    if |xs| == 0 then ""
    else if |xs| == 1 then xs[0]
    else xs[0] + sep + Join(xs[1..], sep)
  }

  /** How many times the character `c` occurs in `s`. */
  function Occurrences(s: string, c: char): nat
  {
    if s == [] then 0 else (if s[0] == c then 1 else 0) + Occurrences(s[1..], c)
  }

  lemma {:induction false} OccurrencesAppend(a: string, b: string, c: char)
    ensures Occurrences(a + b, c) == Occurrences(a, c) + Occurrences(b, c)
  {
    if a != [] {
      assert (a + b)[1..] == a[1..] + b;
      OccurrencesAppend(a[1..], b, c);
    } else {
      assert a + b == b;
    }
  }

  /** When no element contains the one-character separator, joining n >= 1
      elements puts exactly n - 1 separators into the result. */
  lemma {:induction false} JoinSeparatorCount(xs: seq<string>, c: char)
    requires |xs| >= 1
    requires forall i :: 0 <= i < |xs| ==> Occurrences(xs[i], c) == 0
    ensures Occurrences(Join(xs, [c]), c) == |xs| - 1
  {
    if |xs| > 1 {
      JoinSeparatorCount(xs[1..], c);
      OccurrencesAppend(xs[0], [c], c);
      OccurrencesAppend(xs[0] + [c], Join(xs[1..], [c]), c);
      assert Occurrences([c], c) == 1 + Occurrences([c][1..], c);
    }
  }
}

=== FILE: types.dfy ===
/** The canonical schematic model and the shapes of the two diff results.
    Field names follow the TypeScript interfaces; `type`, `old` and `new`
    are Dafny keywords, so they become `kind`, `oldNet`/`newNet` and
    `oldPart`/`newPart`. */
module Types {

  /** Part-type tag attached by the classifier. Its CSS colour string is presentation only. */
  datatype Classification = Classification(kind: string, priority: nat)

  /** A terminal of a part and the net it is bound to. */
  datatype Pin = Pin(num: string, name: string, net: string)

  /** A placed component of one snapshot. `nets` lists the distinct net names of
      its pins; `isNL` is the derived do-not-install flag. */
  datatype Part = Part(
    ref: string,
    pn: string,
    value: string,
    schematic: string,
    page: string,
    footprint: string,
    isNL: bool,
    classification: Classification,
    pins: seq<Pin>,
    nets: seq<string>)

  datatype Meta = Meta(name: string, version: string, encoding: string)

  /** Snapshot counters. `pins` is the exporter's own pin count, taken as given. */
  datatype Stats = Stats(parts: nat, pins: int, nets: nat)

  /** One pin of one part as seen from a net: a self-contained copy of the
      part data the net view needs. */
  datatype NetConnection = NetConnection(
    ref: string,
    pinNum: string,
    pinName: string,
    partType: string,
    pn: string,
    value: string,
    footprint: string)

  /** A net of one snapshot: its connections in sorted order, the pages it
      appears on and the signature used as its topology equality key. */
  datatype NetObject = NetObject(
    name: string,
    pins: seq<NetConnection>,
    pages: set<string>,
    signature: string)

  datatype NetMismatch = NetMismatch(name: string, oldNet: NetObject, newNet: NetObject)

  datatype NetStats = NetStats(mismatch: nat, added: nat, deleted: nat, unconnected: nat)

  datatype NetCompareResults = NetCompareResults(
    mismatch: seq<NetMismatch>,
    added: seq<NetObject>,
    deleted: seq<NetObject>,
    unconnected: seq<NetObject>,
    stats: NetStats)

  /** A matched reference whose property differs between the snapshots. */
  datatype CompDiff = CompDiff(ref: string, page: string, oldPart: Part, newPart: Part)

  datatype CompStats = CompStats(added: nat, removed: nat, footprintDiff: nat, valueDiff: nat, pnDiff: nat)

  datatype CompCompareResults = CompCompareResults(
    added: seq<Part>,
    removed: seq<Part>,
    footprintDiff: seq<CompDiff>,
    valueDiff: seq<CompDiff>,
    pnDiff: seq<CompDiff>,
    stats: CompStats)
}
